=== FILE: README.md ===
# E-commerce Moleculer services, modelled in Dafny

This project models the request handlers of four Moleculer services of a small e-commerce backend:

- **product**: search, admin create, update and delete, reviews, and the Authorization before-hook.
- **cart**: read the caller's cart, add a row.
- **order**: place an order from the cart, list the caller's orders.
- **user**: register, login, and resolve a token to its user.

Each handler is a pure function. It takes an environment, the tables, and the request parameters. It returns a `Run`, which has three parts:

- the tables after the request;
- the store-level calls the request made, in order (store actions, the multer form parse, the Cloudinary upload, bcrypt). A call to another service's action is not listed itself. The store calls that action makes are listed in its place: placeOrder's `cart.getCart` and `product.getProductById` show up as `cart.find` and `products.get`;
- the reply, or the error the handler throws.

Errors are modelled on MoleculerError: a message, a numeric code, a type string, and the `{ error }` cause a handler attaches when it re-throws.

Everything the handlers do not compute themselves is a field of `Backend.Env`:

- jsonwebtoken's `verify` and `sign`, either of which may throw;
- bcrypt's `hash` and `compare`;
- `toLowerCase`;
- `parseFloat`, whose answer is NaN, +Infinity, -Infinity or a finite number;
- the Cloudinary URL of an upload;
- the error a remote call throws, if any.

Fresh row ids and `new Date()` are parameters.

Modules:

| file | module | contents |
|---|---|---|
| common.dfy | `Common` | options, results, errors, JavaScript truthiness |
| seqs.dfy | `Seqs` | filter, first match, subsequence, substring search, with their lemmas |
| auth.dfy | `Auth` | `split`/`join`, the Authorization before-hook, token claims, the token check |
| backend.dfy | `Backend` | rows, tables, remote calls, environment, store helpers |
| sorting.dfy | `Sorting` | the search comparator and a stable sort that uses it |
| catalog.dfy | `Catalog` | the product service |
| cart.dfy | `Cart` | the cart service |
| orders.dfy | `Orders` | the order service |
| users.dfy | `Users` | the user service |

## Model

| member | source | states |
|---|---|---|
| Auth.TokenIsSecondSegment | services/userService/user.service.js:18-29 | The hook yields a token exactly when the header is truthy and contains a space. The token is the text between the first space and the next space or the end. |
| Auth.SplitJoin | services/productService/product.service.js:25 | `split(" ")` is undone by joining with a space, and no part contains the separator. |
| Auth.HeaderThenAuthenticate | services/cartService/cart.service.js:16-38 | The before-hook followed by the token check. A header that is absent, empty or without a space gives 401 NO_TOKEN, and the verifier is never consulted. A header with a space has exactly one reading `scheme + " " + token + rest`. An empty token there, as in `"Bearer  x"`, also gives NO_TOKEN. Any other token is exactly what jsonwebtoken verifies. |
| Catalog.GetProductById | services/productService/product.service.js:55-77 | Exactly one `products.get` call, and no write. It succeeds iff the call succeeds and the row exists, and then returns that row. Every failure is 500 FETCH_ERROR. |
| Catalog.AdminGate | services/productService/product.service.js:146-155 | Passes iff the token is present, verifies, and carries role "admin". A verified non-admin gets 401 UNAUTHORIZED. |
| Catalog.NonAdminIsRejectedFirst | services/productService/product.service.js:82-111 | For a non-admin caller, create, update and delete all return the gate's error wrapped in their own 500. The tables are unchanged and no form parse, upload or store call is made. |
| Catalog.CreateProduct | services/productService/product.service.js:79-137 | Success requires an uploaded file and appends exactly the row built from the form and the upload URL. Any failure leaves the tables unchanged and is 500 CREATE_ERROR. |
| Catalog.CreateCallOrder | services/productService/product.service.js:105-125 | A successful create parses the form, then uploads the file, then creates the row with the parsed fields and the upload URL. |
| Catalog.UpdateProduct | services/productService/product.service.js:140-196 | Only products change. Every failure is 500 UPDATE_ERROR and leaves every table as it was. A success means the product existed. |
| Catalog.UpdateWritesOnlyWhitelist | services/productService/product.service.js:164-185 | On the row with that id, each of name/description/price/stock is overwritten iff the form defines it, and imageUrl iff a file was sent. id and reviews are kept, and every other row is untouched. |
| Catalog.DeleteProduct | services/productService/product.service.js:198-224 | Success means the product existed and the new table holds exactly the old rows with another id. A failure changes nothing and is 500 DELETE_ERROR. |
| Catalog.SearchProducts | services/productService/product.service.js:233-284 | Search reads the table and never writes. Every failure is 500 SEARCH_ERROR. |
| Catalog.FiltersCompose | services/productService/product.service.js:240-255 | The three optional filters, applied in turn, equal one filter by the conjunction of text match and both price bounds. |
| Catalog.SearchSelectsMatches | services/productService/product.service.js:238-273 | A product is in the result iff it is in the table and matches, with the same multiplicities. Without both sort parameters the result is the filtered table in table order (a subsequence of it). With both, it is a permutation of that list in comparator order. |
| Catalog.PriceBand | services/productService/product.service.js:249-255 | With only a price band whose bounds parse to finite numbers, exactly the products with priceMin ≤ price ≤ priceMax survive. |
| Catalog.TextQueryFindsOccurrences | services/productService/product.service.js:240-247 | With only a text query, a product survives iff the lowercased query occurs at some index of its lowercased name or lowercased description. |
| Catalog.UnparsableBoundEmptiesResult | services/productService/product.service.js:249-255 | A bound that parses to NaN admits no product, and neither does a lower bound of +Infinity or an upper bound of -Infinity. |
| Catalog.InfiniteBoundsKeepEverything | services/productService/product.service.js:249-255 | With no text query, a lower bound of -Infinity and an upper bound of +Infinity, or absent bounds, keep every product with its multiplicity. |
| Catalog.AddReview | services/productService/product.service.js:292-350 | Only products change. A failure changes nothing and is 500 ADD_REVIEW_ERROR. |
| Catalog.NoOrdersNoReview | services/productService/product.service.js:303-308 | A caller with no orders gets 403 NOT_PURCHASED wrapped as 500 ADD_REVIEW_ERROR, after only the orders lookup, and nothing is written. |
| Catalog.ReviewAppendsOne | services/productService/product.service.js:318-333 | On success the caller had an order. The product's reviews become the old list (or empty) plus one review whose author is the token's user. Nothing else changes, on that row or any other. |
| Catalog.GetReviews | services/productService/product.service.js:359-390 | Reading reviews never writes, and every failure is 500 FETCH_REVIEWS_ERROR. |
| Catalog.DetailsMapInOrder | services/productService/product.service.js:371-380 | The join succeeds iff every author resolves. Then the i-th detail carries the i-th review's rating, userId, comment (or "") and date, plus its author's username. |
| Catalog.ReviewsInStoredOrder | services/productService/product.service.js:363-385 | A successful read looks up the product, then every author in list order, and returns one detail per stored review in the same order. |
| Sorting.SortCorrect | services/productService/product.service.js:258-273 | The sort returns a permutation of its input that the comparator considers ordered. |
| Sorting.SortedMeaning | services/productService/product.service.js:263-271 | Ordered under "asc" means keys never decrease. Under "desc" they never increase. |
| Sorting.CompareAntisymmetric | services/productService/product.service.js:259-272 | The comparator puts `a` first exactly when, with the arguments swapped, it puts `b` last. |
| Sorting.CompareTransitive | services/productService/product.service.js:259-272 | "Strictly first" under the comparator is transitive. |
| Sorting.StrLessTotal | services/productService/product.service.js:264-265 | JavaScript string `<` is total: of two different names, one is smaller. |
| Cart.GetCart | services/cartService/cart.service.js:31-47 | The cart read never writes, and every failure is 500 FETCH_ERROR. |
| Cart.GetCartIsOwnerScoped | services/cartService/cart.service.js:38-42 | A successful read had a verified token, made one `cart.find`, and returns exactly the rows owned by the token's user, each as often as it occurs in the table, in table order. |
| Cart.AddToCart | services/cartService/cart.service.js:53-75 | Success means the product exists and exactly one row is appended. A failure changes nothing and is 500 CREATE_ERROR. |
| Cart.NoTokenNoCartCall | services/cartService/cart.service.js:34-36 | Without a token, neither action makes a call or writes. Each reports the 401 wrapped as its own 500. |
| Cart.UnknownProductAddsNothing | services/cartService/cart.service.js:64-68 | An unknown product id creates no row. The 400 INVALID_PRODUCT is wrapped as 500 CREATE_ERROR after one lookup. |
| Cart.AddInsertsOneRow | services/cartService/cart.service.js:51-71 | The new row is (new id, token's user, product, quantity or 1 when omitted). The quantity is any number, fractional included. |
| Cart.AddTwiceGivesTwoRows | services/cartService/cart.service.js:70 | Adding the same product twice appends two separate rows. Rows are never merged. |
| Orders.PriceLooksUpInOrder | services/orderService/order.service.js:50-51 | Pricing issues the product lookups of a prefix of the lines, in cart order: all of them when it succeeds, at least one when it fails. |
| Orders.PriceStopsAtFirstFailure | services/orderService/order.service.js:49-53 | Pricing succeeds iff every line's product resolves. Otherwise its last lookup is the first failing line, and the error is that lookup's error. |
| Orders.PriceIsSubtotal | services/orderService/order.service.js:49-53 | A successful pricing totals Σ price × quantity over the lines. |
| Orders.ClearStopsAtFirstFailure | services/orderService/order.service.js:62-65 | Clearing issues one removal per line, in order, up to and including the first failure. It fails iff some removal fails. |
| Orders.ClearRemovesPrefix | services/orderService/order.service.js:62-65 | After clearing, a row remains iff it was in the table and its id is not among the lines removed before the loop stopped. |
| Orders.PlaceOrder | services/orderService/order.service.js:31-71 | Placement never touches products or users, and every failure is 500 PLACE_ORDER_ERROR. |
| Orders.NoTokenNoCalls | services/orderService/order.service.js:34-36 | Without a token, no call is made and nothing is written. The error is 401 NO_TOKEN wrapped as PLACE_ORDER_ERROR. |
| Orders.PricingReadsEachLine | services/orderService/order.service.js:42-60 | When the reads succeed, the calls begin with the cart query, then one lookup per line in order, then the creation of a pending order for the token's user at the Σ price × quantity total. |
| Orders.PlacedMeansEveryStepSucceeded | services/orderService/order.service.js:34-67 | A successful reply means every step succeeded. The token verified, the cart query answered, and every line's product resolved. The order creation at Σ price × quantity succeeded, and so did every removal. |
| Orders.PlacedOrderIsPricedCart | services/orderService/order.service.js:38-67 | A placed order is (new id, token's user, Σ price × quantity over the caller's lines, pending) and is appended to the orders table. The caller's lines are gone from the cart and every other row stays. |
| Orders.FailedLookupWritesNothing | services/orderService/order.service.js:50-56 | If a line's product fails to resolve, no order is created and no row is removed. Only reads were made, and the error is PLACE_ORDER_ERROR. |
| Orders.OrderCreatedBeforeAnyRemoval | services/orderService/order.service.js:56-65 | Every placement's calls are reads, then at most one order creation, then only cart removals. |
| Orders.PlaceAfterCreate | services/orderService/order.service.js:56-67 | Once the order is created, the placement writes the pending order, clears the caller's lines, and reports the clearing loop's error if there is one. |
| Orders.ClearFailureStillFailsAfterCommit | services/orderService/order.service.js:62-70 | If a removal fails, the order row is already written, the rows before the failing line are removed, and the reply is PLACE_ORDER_ERROR caused by that removal's error. |
| Orders.EmptyCartPlacesOrder | services/orderService/order.service.js:42-46 | As written, a caller with no cart rows gets a pending order with total 0. |
| Orders.GuardedRejectsEmptyCart | services/orderService/order.service.js:44-46 | With the corrected test, an empty cart gets CART_EMPTY wrapped as PLACE_ORDER_ERROR, and nothing is written. On a non-empty cart it behaves exactly like the code as written. |
| Orders.PlaceOrderGuarded | services/orderService/order.service.js:44-46 | The corrected placement keeps the as-written guarantees: it never touches products or users, and every failure is 500 PLACE_ORDER_ERROR. |
| Orders.GetOrders | services/orderService/order.service.js:74-90 | Listing never writes, and every failure is 500 FETCH_ERROR. |
| Orders.GetOrdersIsOwnerScoped | services/orderService/order.service.js:81-85 | A successful listing returns exactly the orders whose userId is the token's userId, each as often as it occurs in the table, in table order. |
| Users.Register | services/userService/user.service.js:41-84 | Registration touches only users, and can only append the new user. Every error it throws is a MoleculerError. |
| Users.DuplicateEmailRejected | services/userService/user.service.js:45-50 | An email already present is rejected with 400 "Email already exists", as thrown, after one lookup. No user is created. |
| Users.RegisterStoresHashedUser | services/userService/user.service.js:53-70 | Success means the email was new. The appended row holds the password's hash and the given role or "user". The reply carries only username, email and role. |
| Users.Login | services/userService/user.service.js:91-139 | Login never writes, and every error it throws is a MoleculerError. |
| Users.UnknownEmailIsNotFound | services/userService/user.service.js:96-104 | An unknown email gets 404 "User not found" before any password comparison. |
| Users.LoginSignsIdAndRole | services/userService/user.service.js:107-137 | Login succeeds iff the comparison succeeds and matches and signing {userId: user.id, userRole: user.userType} succeeds. The token is that signature. A mismatch is 401 "Invalid credentials". A signing error, such as an unset secret, is re-thrown as 500 LOGIN_FAILED unless it is already a MoleculerError. |
| Users.RegisterThenLogin | services/userService/user.service.js:53-137 | In one environment, where login's `users.find` by email answers as register's identical lookup did: after registering, login with the same email and password yields a token for the new id and its role, provided bcrypt accepts a password against its own hash. The only other outcome is a signing error, re-thrown as in login. |
| Users.GetUserByToken | services/userService/user.service.js:143-188 | Resolving a token never writes. |
| Users.GetUserByTokenErrors | services/userService/user.service.js:144-168 | A missing token is 400 before verifying. A rejected token is INVALID_TOKEN iff the error is a JsonWebTokenError. A payload without userId, or an unknown user, is 500 AUTH_ERROR. |
| Users.LoginTokenResolvesToUser | services/userService/user.service.js:116-170 | When the verifier accepts every token the signer produces and ids are unique, a token from a successful login resolves to the logged-in user without the password. |

## Left out

- logout and getAllProducts: each is a fixed reply or a single read with no decision in it.
- The API gateway, static serving, broker configuration, database schema sync and the auth middleware: framework wiring with no business rule.
- Parameter validation by the action schemas is done by the framework before a handler runs. Handlers receive already-validated parameters: email format, minimum lengths, the rating range, and the allowed sortBy/sortOrder values.
- Multer form parsing is left out, but a missing file is modelled. createNewProducts applies `parseFloat`/`parseInt` to price and stock. The model takes the parsed numbers and does not model NaN there. updateProductById forwards the raw form strings to `products.update`, and the store converts them. The model takes the converted values, so a string the store cannot convert shows up only as a `products.update` fault.
- Floating-point arithmetic. Prices, cart quantities and review ratings are exact reals, because their schemas say `type: "number"` (services/cartService/cart.service.js:51, services/productService/product.service.js:289) and so admit fractions. The model does not show the rounding of `totalPrice +=` or of `price * quantity`.
- Users.RegisterThenLogin: does not promise the round trip when the database answers login's `users.find` differently from register's, for example a failure or a timeout after moleculer.config.js's 10-second `requestTimeout` between the two requests. Both requests are read in one environment, in which the same call answers the same way.
- Catalog.SearchProducts: applies `parseFloat` only to the bounds. A product's price is already a number, and `parseFloat` of a number is that number.
- Catalog.SearchProducts: a product name is always a string in the model, so it does not promise the failure a null name causes. The products schema misspells `allowNull` as `allownull` (services/db/db.product.service.js:19), so the name column accepts null. createNewProducts passes `name` even when the form omits it (services/productService/product.service.js:113-121). After that, every search with a truthy query throws a TypeError at `product.name.toLowerCase()` (services/productService/product.service.js:243), and the reply is 500 SEARCH_ERROR. The model instead promises success whenever `products.find` succeeds. A name sort over a null name compares with JavaScript's loose `<`, which is not a total order; that case is not modelled either.
- Sorting.StrLess: compares Dafny characters. JavaScript compares UTF-16 code units, which agrees except for characters outside the Basic Multilingual Plane.
- `toLowerCase`, jsonwebtoken and bcrypt are uninterpreted functions of the environment. A lemma that needs one of their laws states that law as a precondition.
- Missing token claims are the empty string, which is falsy like `undefined`.
- UUID generation and `new Date()`: ids and the review timestamp are parameters.
- Concurrency between requests. Each request runs alone against the tables it is given.
- `cart.removeCartItem` is not defined in the cart service. It is modelled as a delete by id whose failure the environment decides.
- A store `get`, `update` or `remove` that finds no row is modelled as answering with no row, and the handler's own check then decides. This is a modelling assumption. moleculer-db rejects such a call with an EntityNotFoundError (404) instead, so in the running system these handler checks are never reached:
  - the NOT_FOUND branches at services/productService/product.service.js:63-66, 186-188, 215-217, 313-314 and 366-367;
  - the INVALID_PRODUCT branch at services/cartService/cart.service.js:66-67;
  - the missing author at services/productService/product.service.js:372-376.
  Each of these handlers wraps the rejection in the same catch, so the reply's code and type are unchanged and only the nested cause differs. Cart.UnknownProductAddsNothing, Catalog.DetailsMapInOrder's failing join, and the NOT_FOUND outcomes of Catalog.GetProductById, Catalog.UpdateProduct, Catalog.DeleteProduct, Catalog.AddReview and Catalog.GetReviews describe this assumed store. `find` answers an empty list when nothing matches, so the NOT_FOUND of login and getUserByToken can happen. Other store errors come from the environment's fault function and are not distinguished further.
- The products schema declares no reviews column. The model keeps reviews as an optional field of the product row, as the review handlers assume.
- getReviews looks up all authors concurrently (`Promise.all`). The model issues every lookup and reports the first failing one in list order.
- Features the handlers do not have are not modelled:
  - merging duplicate cart lines;
  - pruning cart lines that point at deleted products;
  - payment;
  - notification;
  - changing an order's status.

## Findings

| source | as written | input that shows it | evidently intended | confidence | as-written member | corrected member |
|---|---|---|---|---|---|---|
| services/orderService/order.service.js:44-46 | `cartItems.length === 0`, where `cartItems` is getCart's reply `{ message, cartItems }`. The reply has no `length`, so the test is always false. | A verified user with no cart rows. placeOrder creates a pending order with totalPrice 0. | Reject an empty cart with 400 CART_EMPTY: `cartItems.cartItems.length === 0` | high, not executed | Orders.EmptyCartPlacesOrder | Orders.GuardedRejectsEmptyCart |

=== FILE: auth.dfy ===
/** Caller identity: the `before` hook every service installs to pull the
    bearer token out of the Authorization header, the claims a verified token
    carries, and the "No token provided" check at the top of each handler. */
module Auth {
  import opened Common

  /** `s.split(sep)`: the maximal runs between separators, empty runs
      included, so there is always at least one part. */
  function Split(s: string, sep: char): (parts: seq<string>)
    ensures |parts| >= 1
    decreases |s|
  {
    if |s| == 0 then [""]
    else
      var rest := Split(s[1..], sep);
      if s[0] == sep then [""] + rest
      else [[s[0]] + rest[0]] + rest[1..]
  }

  /** `parts.join(sep)`, the inverse of `Split`. */
  function Join(parts: seq<string>, sep: char): string
    requires |parts| >= 1
    decreases |parts|
  {
    if |parts| == 1 then parts[0]
    else parts[0] + [sep] + Join(parts[1..], sep)
  }

  /** Splitting loses nothing: joining the parts back gives the header, and
      no part contains the separator. */
  lemma {:induction false} SplitJoin(s: string, sep: char)
    ensures Join(Split(s, sep), sep) == s
    ensures forall i :: 0 <= i < |Split(s, sep)| ==> sep !in Split(s, sep)[i]
    decreases |s|
  {
    if |s| > 0 {
      SplitJoin(s[1..], sep);
      var rest := Split(s[1..], sep);
      if s[0] == sep {
        assert Split(s, sep) == [""] + rest;
        assert ([""] + rest)[1..] == rest;
      } else {
        var parts := Split(s, sep);
        assert parts == [[s[0]] + rest[0]] + rest[1..];
        if |rest| == 1 {
          assert parts == [[s[0]] + rest[0]];
        } else {
          assert parts[1..] == rest[1..];
          assert Join(rest, sep) == rest[0] + [sep] + Join(rest[1..], sep);
        }
        forall i | 0 <= i < |parts| ensures sep !in parts[i] {
          if i > 0 {
            assert parts[i] == rest[i];
          }
        }
      }
    }
  }

  /** The before-hook: `ctx.meta.token` is the second space-separated segment of
      a truthy Authorization header, `undefined` (None) when the header has no
      space, and `null` (None) when the header is absent or empty. */
  function TokenFromHeader(authorization: Option<string>): Option<string>
  {
    if !Truthy(authorization) then None
    else
      var parts := Split(authorization.value, ' ');
      if |parts| >= 2 then Some(parts[1]) else None
  }

  /** The header reads `scheme + " " + token + rest`: the scheme and the
      token hold no space, and the rest is empty or starts with a space. */
  predicate HeaderReads(h: string, scheme: string, token: string, rest: string) {
    && h == scheme + " " + token + rest
    && ' ' !in scheme && ' ' !in token
    && (rest == [] || rest[0] == ' ')
  }

  /** In `u == t + r` with a space-free `t` and `r` empty or opening with a
      space, `t` runs exactly up to the first space of `u` (or its end). */
  lemma SpaceFreePrefix(u: string, t: string, r: string)
    requires u == t + r && ' ' !in t && (r == [] || r[0] == ' ')
    ensures forall k :: 0 <= k < |t| ==> u[k] != ' '
    ensures |t| < |u| ==> u[|t|] == ' '
  {
    assert forall k :: 0 <= k < |t| ==> u[k] == t[k];
  }

  /** A header has at most one such reading. */
  lemma HeaderReadsUnique(h: string, s1: string, t1: string, r1: string, s2: string, t2: string, r2: string)
    requires HeaderReads(h, s1, t1, r1) && HeaderReads(h, s2, t2, r2)
    ensures s1 == s2 && t1 == t2 && r1 == r2
  {
    assert h == s1 + (" " + t1 + r1) && h == s2 + (" " + t2 + r2);
    SpaceFreePrefix(h, s1, " " + t1 + r1);
    SpaceFreePrefix(h, s2, " " + t2 + r2);
    assert |s1| == |s2|;
    assert s1 == h[..|s1|] == s2;
    var u := h[|s1| + 1..];
    assert u == t1 + r1 && u == t2 + r2;
    SpaceFreePrefix(u, t1, r1);
    SpaceFreePrefix(u, t2, r2);
    assert |t1| == |t2|;
    assert t1 == u[..|t1|] == t2;
    assert r1 == u[|t1|..] == r2;
  }

  /** A header splits into two or more parts exactly when it holds a space. */
  lemma SpaceIffTwoParts(h: string)
    ensures ' ' in h <==> |Split(h, ' ')| >= 2
  {
    SplitJoin(h, ' ');
    if |Split(h, ' ')| >= 2 {
      var scheme, rest := SplitAtFirstSpace(h);
      assert h[|scheme|] == ' ';
    } else {
      assert h == Split(h, ' ')[0];
    }
  }

  /** A header with at least two parts reads `scheme + " " + parts[1] + rest`. */
  lemma SplitAtFirstSpace(h: string) returns (scheme: string, rest: string)
    requires |Split(h, ' ')| >= 2
    ensures HeaderReads(h, scheme, Split(h, ' ')[1], rest)
  {
    var parts := Split(h, ' ');
    SplitJoin(h, ' ');
    var t := parts[1];
    scheme := parts[0];
    rest := if |parts| == 2 then "" else [' '] + Join(parts[2..], ' ');
    assert Join(parts[1..], ' ') == t + rest by {
      if |parts| > 2 {
        assert parts[1..][1..] == parts[2..];
      }
    }
    assert ' ' !in parts[0] && ' ' !in t;
  }

  /** The token is exactly the text between the first space of the header and
      the next space (or the end): the header reads `scheme + " " + token +
      rest`. Without a space in the header there is no token. */
  lemma TokenIsSecondSegment(authorization: Option<string>)
    ensures TokenFromHeader(authorization).Some? <==>
              Truthy(authorization) && ' ' in authorization.value
    ensures TokenFromHeader(authorization).Some? ==>
              exists scheme: string, rest: string ::
                HeaderReads(authorization.value, scheme, TokenFromHeader(authorization).value, rest)
  {
    if Truthy(authorization) {
      var h := authorization.value;
      SpaceIffTwoParts(h);
      if ' ' in h {
        var scheme, rest := SplitAtFirstSpace(h);
        assert HeaderReads(h, scheme, TokenFromHeader(authorization).value, rest);
      }
    }
  }

  /** The payload of a verified token. A missing field is modelled by the empty
      string, which JavaScript treats as falsy like `undefined`. */
  datatype Claims = Claims(userId: string, userRole: string)

  /** The opening of every authenticated handler: reject a missing token, then
      `jwt.verify` it. `verify` is jsonwebtoken with the service's secret: it
      yields the payload or the error jsonwebtoken throws. */
  function Authenticate(verify: string -> Result<Claims>, token: Option<string>): Result<Claims>
  {
    if !Truthy(token) then Err(Raise("No token provided", 401, "NO_TOKEN"))
    else verify(token.value)
  }

  /** The hook and the check together, in terms of the Authorization header:
      a header that is absent or empty, or that has no space, is refused with
      401 NO_TOKEN and `verify` never sees it. A header with a space has a
      reading `scheme + " " + token + rest`; an empty token there (as in
      "Bearer  x") is refused the same way, and any other token is exactly what
      gets verified. */
  lemma HeaderThenAuthenticate(verify: string -> Result<Claims>, authorization: Option<string>)
    ensures (!Truthy(authorization) || ' ' !in authorization.value) ==>
              Authenticate(verify, TokenFromHeader(authorization))
                == Err(Raise("No token provided", 401, "NO_TOKEN"))
    ensures Truthy(authorization) && ' ' in authorization.value ==>
              exists scheme: string, token: string, rest: string ::
                HeaderReads(authorization.value, scheme, token, rest)
    ensures forall scheme: string, token: string, rest: string
              | Truthy(authorization) && HeaderReads(authorization.value, scheme, token, rest) ::
              Authenticate(verify, TokenFromHeader(authorization))
                == (if token == "" then Err(Raise("No token provided", 401, "NO_TOKEN")) else verify(token))
  {
    if Truthy(authorization) {
      var h := authorization.value;
      SpaceIffTwoParts(h);
      if ' ' in h {
        var scheme, rest := SplitAtFirstSpace(h);
        assert HeaderReads(h, scheme, Split(h, ' ')[1], rest);
      }
      forall scheme: string, token: string, rest: string | HeaderReads(h, scheme, token, rest)
        ensures Authenticate(verify, TokenFromHeader(authorization))
                  == (if token == "" then Err(Raise("No token provided", 401, "NO_TOKEN")) else verify(token))
      {
        assert h[|scheme|] == ' ';
        var scheme0, rest0 := SplitAtFirstSpace(h);
        HeaderReadsUnique(h, scheme0, Split(h, ' ')[1], rest0, scheme, token, rest);
      }
    }
  }
}

=== FILE: backend.dfy ===
/** The rows the four services share, the abstract store that holds them, the
    remote calls a handler can issue, and the environment that decides what
    the calls and the external libraries answer. */
module Backend {
  import opened Common
  import opened Seqs
  import opened Auth

  /** A product review; `createdAt` is the `new Date()` of the request. The
      rating is a JavaScript number, so a fractional rating is kept as it is. */
  datatype Review = Review(userId: string, rating: real, comment: Option<string>, createdAt: int)

  /** A catalogue row. `reviews` is absent until the first review is added. */
  datatype Product = Product(id: string, name: string, description: string, price: real,
                             imageUrl: Option<string>, stock: int, reviews: Option<seq<Review>>)

  /** A cart row: one `cart.create` call per add, never merged. The quantity
      is a JavaScript number and may be fractional. */
  datatype CartLine = CartLine(id: string, userId: string, productId: string, quantity: real)

  /** The three values of the orders table's status enum. */
  datatype Status = Pending | Completed | Cancelled

  datatype Order = Order(id: string, userId: string, totalPrice: real, status: Status,
                         paymentIntentId: Option<string>)

  /** A user row; `password` holds the bcrypt hash. */
  datatype User = User(id: string, username: string, email: string, password: string, userType: string)

  /** The tables, each in the order a `find` returns its rows. */
  datatype Store = Store(products: seq<Product>, cart: seq<CartLine>, orders: seq<Order>, users: seq<User>)

  /** The fields `createNewProducts` sends to `products.create`. */
  datatype Draft = Draft(name: string, description: string, price: real, stock: int, imageUrl: string)

  /** The fields `updateProductById` sends to `products.update`; None is a key
      that is not in the update object. */
  datatype Patch = Patch(name: Option<string>, description: Option<string>, price: Option<real>,
                         stock: Option<int>, imageUrl: Option<string>)

  /** Every remote step a handler can take, in the order it takes them. */
  datatype Call =
    | ParseForm                                   // multer `upload.single("image")`
    | UploadImage(path: string)                   // cloudinary upload of the form file
    | ProductsFind
    | ProductsGet(id: string)
    | ProductsCreate(draft: Draft)
    | ProductsUpdate(id: string, patch: Patch)
    | ProductsSetReviews(id: string, reviews: seq<Review>)
    | ProductsRemove(id: string)
    | CartFind(userId: string)
    | CartCreate(userId: string, productId: string, quantity: real)
    | CartRemove(id: string)                      // `cart.removeCartItem`, an abstract delete by id
    | OrdersFind(userId: string)
    | OrdersCreate(userId: string, totalPrice: real, status: Status)
    | UsersFindByEmail(email: string)
    | UsersFindProfile(email: string)             // users.find by email with a `fields` projection
    | UsersFindById(id: string)
    | UsersGet(id: string)
    | UsersCreate(username: string, email: string, password: string, userType: string)
    | HashPassword(password: string)              // bcrypt.hash(password, 10)
    | ComparePassword(password: string, hash: string)   // bcrypt.compare

  /** What JavaScript's `parseFloat` returns: NaN, an infinity (for
      "Infinity", "-Infinity" or a literal too large for a double, such as
      "1e400"), or a finite number. */
  datatype JsNumber = NaN | Infinity(positive: bool) | Finite(value: real)

  /** What the world outside the handlers answers.
      `verify`: jwt.verify with the service secret; `sign`: jwt.sign, or the
      error it throws (an unset secret, say);
      `hash`: the bcrypt hash of a password; `passwordMatches`: bcrypt.compare;
      `lower`: String.prototype.toLowerCase; `parseFloat`: the global;
      `imageUrl`: the secure_url cloudinary returns for an uploaded path;
      `fault`: the error a remote call throws, None when it succeeds. */
  datatype Env = Env(
    verify: string -> Result<Claims>,
    sign: Claims -> Result<string>,
    hash: string -> string,
    passwordMatches: (string, string) -> bool,
    lower: string -> string,
    parseFloat: string -> JsNumber,
    imageUrl: string -> string,
    fault: Call -> Option<Fault>)

  /** One request: the store it leaves behind, the calls it issued, and its
      reply or thrown error. */
  datatype Run<+T> = Run(store: Store, calls: seq<Call>, result: Result<T>)

  /** The outer `catch` of a handler: any error thrown inside the `try` is
      re-thrown as a 500 MoleculerError of the given type, with the original
      error as its cause. The store and the calls already made stay as they are. */
  function Catch<T>(r: Run<T>, message: string, kind: string): Run<T>
  {
    match r.result
    case Ok(_) => r
    case Err(e) => Run(r.store, r.calls, Err(Wrap(message, 500, kind, e)))
  }

  /** `products.get`: the row with that id, if any. */
  function GetProduct(st: Store, id: string): (r: Option<Product>)
    ensures r.Some? ==> r.value in st.products && r.value.id == id
    ensures r.None? ==> forall i :: 0 <= i < |st.products| ==> st.products[i].id != id
  {
    First(st.products, (p: Product) => p.id == id)
  }

  /** Rows of the cart table owned by `userId` (`cart.find({ query: { userId } })`). */
  function CartOf(lines: seq<CartLine>, userId: string): seq<CartLine>
  {
    Filter(lines, (l: CartLine) => l.userId == userId)
  }

  /** Rows of the orders table owned by `userId`. */
  function OrdersOf(orders: seq<Order>, userId: string): seq<Order>
  {
    Filter(orders, (o: Order) => o.userId == userId)
  }

  function UsersWithEmail(users: seq<User>, email: string): seq<User>
  {
    Filter(users, (u: User) => u.email == email)
  }

  function UsersWithId(users: seq<User>, id: string): seq<User>
  {
    Filter(users, (u: User) => u.id == id)
  }

  /** `users.get`: the row with that id, if any. */
  function GetUser(st: Store, id: string): Option<User>
  {
    First(st.users, (u: User) => u.id == id)
  }

  /** The cart table after deleting the rows with id `id`. */
  function RemoveLine(lines: seq<CartLine>, id: string): seq<CartLine>
  {
    Filter(lines, (l: CartLine) => l.id != id)
  }

  /** `products.update` of the fields in `patch` on the rows with id `id`. */
  function UpdateProducts(ps: seq<Product>, id: string, patch: Patch): (r: seq<Product>)
    ensures |r| == |ps|
    ensures forall i :: 0 <= i < |ps| ==>
              r[i] == if ps[i].id == id then ApplyPatch(ps[i], patch) else ps[i]
    decreases |ps|
  {
    if |ps| == 0 then []
    else [if ps[0].id == id then ApplyPatch(ps[0], patch) else ps[0]]
         + UpdateProducts(ps[1..], id, patch)
  }

  /** A row after `products.update`: each field named in the patch is
      overwritten, every other field (id and reviews included) is kept. */
  function ApplyPatch(p: Product, patch: Patch): Product
  {
    p.(name := patch.name.GetOr(p.name),
       description := patch.description.GetOr(p.description),
       price := patch.price.GetOr(p.price),
       stock := patch.stock.GetOr(p.stock),
       imageUrl := if patch.imageUrl.Some? then patch.imageUrl else p.imageUrl)
  }

  /** `products.update({ id, reviews })` on the rows with id `id`. */
  function SetReviews(ps: seq<Product>, id: string, reviews: seq<Review>): (r: seq<Product>)
    ensures |r| == |ps|
    ensures forall i :: 0 <= i < |ps| ==>
              r[i] == if ps[i].id == id then ps[i].(reviews := Some(reviews)) else ps[i]
    decreases |ps|
  {
    if |ps| == 0 then []
    else [if ps[0].id == id then ps[0].(reviews := Some(reviews)) else ps[0]]
         + SetReviews(ps[1..], id, reviews)
  }

  /** `products.remove`: the table without the rows with id `id`. */
  function RemoveProducts(ps: seq<Product>, id: string): seq<Product>
  {
    Filter(ps, (p: Product) => p.id != id)
  }
}

=== FILE: cart.dfy ===
/** The cart service: the caller's cart rows, and adding a row. */
module Cart {
  import opened Common
  import opened Seqs
  import opened Auth
  import opened Backend

  /** The reply of `getCart`: a wrapper object around the rows. */
  datatype CartView = CartView(message: string, cartItems: seq<CartLine>)

  /** `cart.getCart`: the rows whose userId is the token's userId. */
  function GetCart(env: Env, st: Store, token: Option<string>): (r: Run<CartView>)
    ensures r.store == st
    ensures r.result.Err? ==> r.result.error.code == 500 && r.result.error.kind == "FETCH_ERROR"
  {
    Catch(
      match Authenticate(env.verify, token)
      case Err(e) => Run(st, [], Err(e))
      case Ok(claims) =>
        var find := CartFind(claims.userId);
        match env.fault(find)
        case Some(e) => Run(st, [find], Err(e))
        case None => Run(st, [find], Ok(CartView("User's cart", CartOf(st.cart, claims.userId)))),
      "Unable to fetch cart", "FETCH_ERROR")
  }

  /** The cart read is scoped by the token: it succeeds only for a verified
      token, and then returns exactly the caller's rows, each as often as it
      occurs in the table, in table order. */
  lemma GetCartIsOwnerScoped(env: Env, st: Store, token: Option<string>)
    requires GetCart(env, st, token).result.Ok?
    ensures Truthy(token) && env.verify(token.value).Ok?
    ensures var userId := env.verify(token.value).value.userId;
            var items := GetCart(env, st, token).result.value.cartItems;
            && GetCart(env, st, token).calls == [CartFind(userId)]
            && (forall l :: l in items <==> l in st.cart && l.userId == userId)
            && (forall l :: multiset(items)[l] == if l.userId == userId then multiset(st.cart)[l] else 0)
            && IsSubsequence(items, st.cart)
  {
    var userId := env.verify(token.value).value.userId;
    forall l {
      FilterCounts(st.cart, (l: CartLine) => l.userId == userId, l);
    }
    FilterMembers(st.cart, (l: CartLine) => l.userId == userId);
    FilterIsSubsequence(st.cart, (l: CartLine) => l.userId == userId);
  }

  /** The reply of `addToCart`. */
  datatype Added = Added(message: string, cartItem: CartLine)

  /** `cart.addToCart`: check that the product exists, then create one row.
      `quantity` is None when the caller omitted it; `newId` is the id the
      table assigns to the row. */
  function AddToCart(env: Env, st: Store, token: Option<string>, productId: string,
                     quantity: Option<real>, newId: string): (r: Run<Added>)
    ensures r.store.products == st.products && r.store.orders == st.orders && r.store.users == st.users
    ensures r.result.Err? ==> r.store == st && r.result.error.code == 500
                              && r.result.error.kind == "CREATE_ERROR"
    ensures r.result.Ok? ==> GetProduct(st, productId).Some?
                             && r.store.cart == st.cart + [r.result.value.cartItem]
  {
    Catch(
      match Authenticate(env.verify, token)
      case Err(e) => Run(st, [], Err(e))
      case Ok(claims) =>
        var get := ProductsGet(productId);
        match env.fault(get)
        case Some(e) => Run(st, [get], Err(e))
        case None =>
          match GetProduct(st, productId)
          case None => Run(st, [get], Err(Raise("Invalid product ID", 400, "INVALID_PRODUCT")))
          case Some(_) =>
            var qty := quantity.GetOr(1.0);
            var create := CartCreate(claims.userId, productId, qty);
            match env.fault(create)
            case Some(e) => Run(st, [get, create], Err(e))
            case None =>
              var line := CartLine(newId, claims.userId, productId, qty);
              Run(st.(cart := st.cart + [line]), [get, create], Ok(Added("Item added to cart", line))),
      "Unable to add item to cart", "CREATE_ERROR")
  }

  /** Without a token neither action makes a call or touches the store; the
      401 NO_TOKEN error is re-thrown as each action's 500. */
  lemma NoTokenNoCartCall(env: Env, st: Store, token: Option<string>, productId: string,
                          quantity: Option<real>, newId: string)
    requires !Truthy(token)
    ensures GetCart(env, st, token)
              == Run(st, [], Err(Wrap("Unable to fetch cart", 500, "FETCH_ERROR",
                                      Raise("No token provided", 401, "NO_TOKEN"))))
    ensures AddToCart(env, st, token, productId, quantity, newId)
              == Run(st, [], Err(Wrap("Unable to add item to cart", 500, "CREATE_ERROR",
                                      Raise("No token provided", 401, "NO_TOKEN"))))
  {
  }

  /** Adding a product that is not in the catalogue creates no row: the
      400 INVALID_PRODUCT error comes back as a 500 CREATE_ERROR after the
      one product lookup. This is about a store whose `get` answers no row;
      moleculer-db rejects with a 404 instead, which the same catch turns
      into the same 500 CREATE_ERROR with a different cause. */
  lemma UnknownProductAddsNothing(env: Env, st: Store, token: Option<string>, productId: string,
                                  quantity: Option<real>, newId: string)
    requires Truthy(token) && env.verify(token.value).Ok?
    requires env.fault(ProductsGet(productId)).None?
    requires forall p :: p in st.products ==> p.id != productId
    ensures var r := AddToCart(env, st, token, productId, quantity, newId);
            && r.store == st
            && r.calls == [ProductsGet(productId)]
            && r.result == Err(Wrap("Unable to add item to cart", 500, "CREATE_ERROR",
                                    Raise("Invalid product ID", 400, "INVALID_PRODUCT")))
  {
  }

  /** A successful add inserts exactly one row, owned by the token's user,
      holding the requested product and the given quantity or 1 when it was
      omitted. */
  lemma AddInsertsOneRow(env: Env, st: Store, token: Option<string>, productId: string,
                         quantity: Option<real>, newId: string)
    requires AddToCart(env, st, token, productId, quantity, newId).result.Ok?
    ensures Truthy(token) && env.verify(token.value).Ok?
    ensures var line := CartLine(newId, env.verify(token.value).value.userId, productId,
                                 if quantity.Some? then quantity.value else 1.0);
            && AddToCart(env, st, token, productId, quantity, newId).result.value.cartItem == line
            && AddToCart(env, st, token, productId, quantity, newId).store.cart == st.cart + [line]
  {
  }

  /** Adds never merge: adding the same product twice leaves two new rows for
      it, each with its own id and quantity. */
  lemma AddTwiceGivesTwoRows(env: Env, st: Store, token: Option<string>, productId: string,
                             q1: Option<real>, q2: Option<real>, id1: string, id2: string)
    requires AddToCart(env, st, token, productId, q1, id1).result.Ok?
    requires AddToCart(env, AddToCart(env, st, token, productId, q1, id1).store,
                       token, productId, q2, id2).result.Ok?
    ensures var first := AddToCart(env, st, token, productId, q1, id1);
            var second := AddToCart(env, first.store, token, productId, q2, id2);
            var userId := env.verify(token.value).value.userId;
            second.store.cart == st.cart + [CartLine(id1, userId, productId, q1.GetOr(1.0)),
                                            CartLine(id2, userId, productId, q2.GetOr(1.0))]
  {
    AddInsertsOneRow(env, st, token, productId, q1, id1);
    var first := AddToCart(env, st, token, productId, q1, id1);
    AddInsertsOneRow(env, first.store, token, productId, q2, id2);
  }
}

=== FILE: catalog.dfy ===
/** The product service: lookup by id, the admin-only create, update and
    delete actions, search with filters and sorting, and the purchase-gated
    reviews. */
module Catalog {
  import opened Common
  import opened Seqs
  import opened Auth
  import opened Backend
  import opened Sorting

  // ----- getProductById -----

  /** `product.getProductById`; placeOrder prices every cart line through it. */
  function GetProductById(env: Env, st: Store, id: string): (r: Run<Product>)
    ensures r.store == st && r.calls == [ProductsGet(id)]
    ensures r.result.Ok? <==> env.fault(ProductsGet(id)).None? && GetProduct(st, id).Some?
    ensures r.result.Ok? ==> r.result.value in st.products && r.result.value.id == id
    ensures r.result.Err? ==> r.result.error.code == 500 && r.result.error.kind == "FETCH_ERROR"
  {
    var c := ProductsGet(id);
    Catch(
      match env.fault(c)
      case Some(e) => Run(st, [c], Err(e))
      case None =>
        match GetProduct(st, id)
        case None => Run(st, [c], Err(Raise("Product not found", 404, "NOT_FOUND")))
        case Some(p) => Run(st, [c], Ok(p)),
      "Unable to fetch product with this id ", "FETCH_ERROR")
  }

  // ----- the admin gate of create, update and delete -----

  /** Token present, verified, and carrying the role "admin". */
  function AdminGate(env: Env, token: Option<string>): (r: Result<Claims>)
    ensures r.Ok? <==> Truthy(token) && env.verify(token.value).Ok?
                       && env.verify(token.value).value.userRole == "admin"
    ensures Truthy(token) && env.verify(token.value).Ok?
            && env.verify(token.value).value.userRole != "admin"
            ==> r == Err(Raise("Unauthorized", 401, "UNAUTHORIZED"))
  {
    match Authenticate(env.verify, token)
    case Err(e) => Err(e)
    case Ok(claims) =>
      if claims.userRole != "admin" then Err(Raise("Unauthorized", 401, "UNAUTHORIZED"))
      else Ok(claims)
  }

  /** The multipart form of `createNewProducts`, its fields already parsed
      (`parseFloat(price)`, `parseInt(stock)`); `file` is the uploaded image's
      path, absent when no file was sent. */
  datatype CreateForm = CreateForm(name: string, description: string, price: real, stock: int,
                                   file: Option<string>)

  /** The multipart form of `updateProductById`: each of the four editable
      fields is present or not. */
  datatype UpdateForm = UpdateForm(name: Option<string>, description: Option<string>,
                                   price: Option<real>, stock: Option<int>, file: Option<string>)

  // ----- createNewProducts -----

  function CreateProduct(env: Env, st: Store, token: Option<string>, form: CreateForm,
                         newId: string): (r: Run<Product>)
    ensures r.result.Err? ==> r.result.error.code == 500 && r.result.error.kind == "CREATE_ERROR"
    ensures r.result.Ok? ==>
              && form.file.Some?
              && r.result.value == Product(newId, form.name, form.description, form.price,
                                           Some(env.imageUrl(form.file.value)), form.stock, None)
              && r.store == st.(products := st.products + [r.result.value])
    ensures r.result.Err? ==> r.store == st
  {
    Catch(CreateSteps(env, st, token, form, newId), "Unable to create product", "CREATE_ERROR")
  }

  function CreateSteps(env: Env, st: Store, token: Option<string>, form: CreateForm,
                       newId: string): Run<Product>
  {
    match AdminGate(env, token)
    case Err(e) => Run(st, [], Err(e))
    case Ok(_) =>
      match env.fault(ParseForm)
      case Some(e) => Run(st, [ParseForm], Err(e))
      case None =>
        match form.file
        case None => Run(st, [ParseForm], Err(TypeError("Cannot read properties of undefined (reading 'path')")))
        case Some(path) =>
          var upload := UploadImage(path);
          match env.fault(upload)
          case Some(e) => Run(st, [ParseForm, upload], Err(e))
          case None =>
            var draft := Draft(form.name, form.description, form.price, form.stock, env.imageUrl(path));
            var create := ProductsCreate(draft);
            match env.fault(create)
            case Some(e) => Run(st, [ParseForm, upload, create], Err(e))
            case None =>
              var p := Product(newId, draft.name, draft.description, draft.price,
                               Some(draft.imageUrl), draft.stock, None);
              Run(st.(products := st.products + [p]), [ParseForm, upload, create], Ok(p))
  }

  // ----- updateProductById -----

  /** The `updateData` object: the whitelisted fields the form defines, plus
      the uploaded image's URL when a file came with it. */
  function UpdateData(form: UpdateForm, url: Option<string>): Patch
  {
    Patch(form.name, form.description, form.price, form.stock, url)
  }

  function UpdateProduct(env: Env, st: Store, token: Option<string>, id: string,
                         form: UpdateForm): (r: Run<Product>)
    ensures r.result.Err? ==> r.store == st && r.result.error.code == 500
                              && r.result.error.kind == "UPDATE_ERROR"
    ensures r.result.Ok? ==> GetProduct(st, id).Some?
    ensures r.store.cart == st.cart && r.store.orders == st.orders && r.store.users == st.users
  {
    Catch(UpdateSteps(env, st, token, id, form), "Unable to update product", "UPDATE_ERROR")
  }

  function UpdateSteps(env: Env, st: Store, token: Option<string>, id: string,
                       form: UpdateForm): Run<Product>
  {
    match AdminGate(env, token)
    case Err(e) => Run(st, [], Err(e))
    case Ok(_) =>
      match env.fault(ParseForm)
      case Some(e) => Run(st, [ParseForm], Err(e))
      case None =>
        match form.file
        case None => CommitUpdate(env, st, id, UpdateData(form, None), [ParseForm])
        case Some(path) =>
          var upload := UploadImage(path);
          match env.fault(upload)
          case Some(e) => Run(st, [ParseForm, upload], Err(e))
          case None =>
            CommitUpdate(env, st, id, UpdateData(form, Some(env.imageUrl(path))), [ParseForm, upload])
  }

  /** `products.update({ id, ...updateData })` and the NOT_FOUND check on its answer. */
  function CommitUpdate(env: Env, st: Store, id: string, patch: Patch, before: seq<Call>): Run<Product>
  {
    var c := ProductsUpdate(id, patch);
    match env.fault(c)
    case Some(e) => Run(st, before + [c], Err(e))
    case None =>
      match GetProduct(st, id)
      case None => Run(st, before + [c], Err(Raise("Product not found", 404, "NOT_FOUND")))
      case Some(p) =>
        Run(st.(products := UpdateProducts(st.products, id, patch)), before + [c], Ok(ApplyPatch(p, patch)))
  }

  // ----- deleteProductById -----

  function DeleteProduct(env: Env, st: Store, token: Option<string>, id: string): (r: Run<string>)
    ensures r.result.Err? ==> r.store == st && r.result.error.code == 500
                              && r.result.error.kind == "DELETE_ERROR"
    ensures r.result.Ok? ==> GetProduct(st, id).Some?
                             && r.store == st.(products := RemoveProducts(st.products, id))
                             && forall p :: p in r.store.products <==> p in st.products && p.id != id
  {
    var steps :=
      match AdminGate(env, token)
      case Err(e) => Run(st, [], Err(e))
      case Ok(_) =>
        var c := ProductsRemove(id);
        match env.fault(c)
        case Some(e) => Run(st, [c], Err(e))
        case None =>
          match GetProduct(st, id)
          case None => Run(st, [c], Err(Raise("Product not found", 404, "NOT_FOUND")))
          case Some(_) =>
            Run(st.(products := RemoveProducts(st.products, id)), [c], Ok("Product deleted successfully"));
    FilterMembers(st.products, (p: Product) => p.id != id);
    Catch(steps, "Unable to delete product", "DELETE_ERROR")
  }

  /** A caller without the admin role (no token, a token jwt rejects, or a
      role other than "admin") is turned away before the form is parsed, before
      any upload and before any store call, in all three admin actions. */
  lemma NonAdminIsRejectedFirst(env: Env, st: Store, token: Option<string>, cform: CreateForm,
                                newId: string, id: string, uform: UpdateForm)
    requires !(Truthy(token) && env.verify(token.value).Ok?
               && env.verify(token.value).value.userRole == "admin")
    ensures var gate := AdminGate(env, token).error;
            && CreateProduct(env, st, token, cform, newId)
                 == Run(st, [], Err(Wrap("Unable to create product", 500, "CREATE_ERROR", gate)))
            && UpdateProduct(env, st, token, id, uform)
                 == Run(st, [], Err(Wrap("Unable to update product", 500, "UPDATE_ERROR", gate)))
            && DeleteProduct(env, st, token, id)
                 == Run(st, [], Err(Wrap("Unable to delete product", 500, "DELETE_ERROR", gate)))
  {
  }

  /** A successful create by an admin parses the form, uploads the image,
      then creates the row, in that order. */
  lemma CreateCallOrder(env: Env, st: Store, token: Option<string>, form: CreateForm, newId: string)
    requires CreateProduct(env, st, token, form, newId).result.Ok?
    ensures AdminGate(env, token).Ok?
    ensures var r := CreateProduct(env, st, token, form, newId);
            r.calls == [ParseForm, UploadImage(form.file.value),
                        ProductsCreate(Draft(form.name, form.description, form.price, form.stock,
                                             env.imageUrl(form.file.value)))]
  {
  }

  /** The update writes only the whitelisted fields the form defines and the
      image URL when a file was sent: on the rows with that id, every field
      the form leaves out keeps its value, and id and reviews are never
      written; rows with other ids are untouched. */
  lemma UpdateWritesOnlyWhitelist(env: Env, st: Store, token: Option<string>, id: string,
                                  form: UpdateForm)
    requires UpdateProduct(env, st, token, id, form).result.Ok?
    ensures var r := UpdateProduct(env, st, token, id, form);
            && |r.store.products| == |st.products|
            && forall i :: 0 <= i < |st.products| ==>
                 var old_ := st.products[i];
                 var new_ := r.store.products[i];
                 if old_.id != id then new_ == old_
                 else
                   && new_.id == old_.id
                   && new_.reviews == old_.reviews
                   && new_.name == form.name.GetOr(old_.name)
                   && new_.description == form.description.GetOr(old_.description)
                   && new_.price == form.price.GetOr(old_.price)
                   && new_.stock == form.stock.GetOr(old_.stock)
                   && new_.imageUrl == (if form.file.Some? then Some(env.imageUrl(form.file.value))
                                        else old_.imageUrl)
  {
  }

  // ----- searchProducts -----

  /** The query parameters: `priceMin`/`priceMax` are the raw strings handed
      to `parseFloat`; `sortBy`/`sortOrder` are restricted to their listed
      values by the parameter schema. */
  datatype SearchQuery = SearchQuery(query: Option<string>, priceMin: Option<string>,
                                     priceMax: Option<string>, sortBy: Option<SortField>,
                                     sortOrder: Option<SortOrder>)

  /** The text filter: with a truthy `query`, the lowercased name or the
      lowercased description contains the lowercased query. */
  predicate TextMatches(env: Env, q: SearchQuery, p: Product) {
    !Truthy(q.query)
    || Includes(env.lower(p.name), env.lower(q.query.value))
    || Includes(env.lower(p.description), env.lower(q.query.value))
  }

  /** JavaScript's `x >= b` for a finite `x`: false against NaN, true
      against -Infinity, false against +Infinity. */
  predicate AtLeast(x: real, b: JsNumber) {
    match b
    case NaN => false
    case Infinity(positive) => !positive
    case Finite(v) => x >= v
  }

  /** JavaScript's `x <= b` for a finite `x`. */
  predicate AtMost(x: real, b: JsNumber) {
    match b
    case NaN => false
    case Infinity(positive) => positive
    case Finite(v) => x <= v
  }

  /** The lower price bound; an unparsable bound (NaN) admits nothing. */
  predicate AboveMin(env: Env, q: SearchQuery, p: Product) {
    q.priceMin.None? || AtLeast(p.price, env.parseFloat(q.priceMin.value))
  }

  /** The upper price bound; an unparsable bound (NaN) admits nothing. */
  predicate BelowMax(env: Env, q: SearchQuery, p: Product) {
    q.priceMax.None? || AtMost(p.price, env.parseFloat(q.priceMax.value))
  }

  /** A product survives the three filters. */
  predicate Matches(env: Env, q: SearchQuery, p: Product) {
    TextMatches(env, q, p) && AboveMin(env, q, p) && BelowMax(env, q, p)
  }

  /** Sorting is applied only when both sort parameters are given. */
  predicate SortRequested(q: SearchQuery) {
    q.sortBy.Some? && q.sortOrder.Some?
  }

  /** The handler's pipeline over the fetched rows: filter by text, then by
      the minimum, then by the maximum, then sort. */
  function SearchPipeline(env: Env, q: SearchQuery, all: seq<Product>): seq<Product>
  {
    var byText := if Truthy(q.query) then Filter(all, (p: Product) => TextMatches(env, q, p)) else all;
    var byMin := if q.priceMin.Some? then Filter(byText, (p: Product) => AboveMin(env, q, p)) else byText;
    var byMax := if q.priceMax.Some? then Filter(byMin, (p: Product) => BelowMax(env, q, p)) else byMin;
    if SortRequested(q) then Sort(q.sortBy.value, q.sortOrder.value, byMax) else byMax
  }

  function SearchProducts(env: Env, st: Store, q: SearchQuery): (r: Run<seq<Product>>)
    ensures r.store == st && r.calls == [ProductsFind]
    ensures r.result.Ok? <==> env.fault(ProductsFind).None?
    ensures r.result.Err? ==>
              r.result.error == Wrap("Unable to search products", 500, "SEARCH_ERROR",
                                     env.fault(ProductsFind).value)
  {
    Catch(
      match env.fault(ProductsFind)
      case Some(e) => Run(st, [ProductsFind], Err(e))
      case None => Run(st, [ProductsFind], Ok(SearchPipeline(env, q, st.products))),
      "Unable to search products", "SEARCH_ERROR")
  }

  /** Before sorting, the three successive filters are one filter by `Matches`. */
  lemma FiltersCompose(env: Env, q: SearchQuery, all: seq<Product>)
    ensures var byText := if Truthy(q.query) then Filter(all, (p: Product) => TextMatches(env, q, p)) else all;
            var byMin := if q.priceMin.Some? then Filter(byText, (p: Product) => AboveMin(env, q, p)) else byText;
            var byMax := if q.priceMax.Some? then Filter(byMin, (p: Product) => BelowMax(env, q, p)) else byMin;
            byMax == Filter(all, (p: Product) => Matches(env, q, p))
  {
    var t := (p: Product) => TextMatches(env, q, p);
    var lo := (p: Product) => AboveMin(env, q, p);
    var hi := (p: Product) => BelowMax(env, q, p);
    var byText := if Truthy(q.query) then Filter(all, t) else all;
    if !Truthy(q.query) {
      FilterAll(all, t);
    }
    assert byText == Filter(all, t);
    var byMin := if q.priceMin.Some? then Filter(byText, lo) else byText;
    if q.priceMin.None? {
      FilterAll(byText, lo);
    }
    assert byMin == Filter(byText, lo);
    var byMax := if q.priceMax.Some? then Filter(byMin, hi) else byMin;
    if q.priceMax.None? {
      FilterAll(byMin, hi);
    }
    assert byMax == Filter(byMin, hi);
    var tlo := (p: Product) => t(p) && lo(p);
    FilterFilter(all, t, lo, tlo);
    FilterFilter(all, tlo, hi, (p: Product) => Matches(env, q, p));
  }

  /** The search returns exactly the matching products, with their
      multiplicities: a product is in the result if and only if it is in the
      table and passes the text filter and both price bounds. Without a sort
      the result keeps the table's order (a subsequence of it); with a sort it
      is a permutation of that filtered list in comparator order. */
  lemma {:induction false} SearchSelectsMatches(env: Env, st: Store, q: SearchQuery)
    requires SearchProducts(env, st, q).result.Ok?
    ensures var r := SearchProducts(env, st, q).result.value;
            var kept := Filter(st.products, (p: Product) => Matches(env, q, p));
            && multiset(r) == multiset(kept)
            && (forall p :: p in r <==> p in st.products && Matches(env, q, p))
            && (!SortRequested(q) ==> r == kept && IsSubsequence(r, st.products))
            && (SortRequested(q) ==> Sorted(q.sortBy.value, q.sortOrder.value, r))
  {
    var r := SearchProducts(env, st, q).result.value;
    var kept := Filter(st.products, (p: Product) => Matches(env, q, p));
    FiltersCompose(env, q, st.products);
    FilterMembers(st.products, (p: Product) => Matches(env, q, p));
    FilterIsSubsequence(st.products, (p: Product) => Matches(env, q, p));
    if SortRequested(q) {
      SortCorrect(q.sortBy.value, q.sortOrder.value, kept);
      forall p ensures p in r <==> p in kept {
        assert p in r <==> p in multiset(r);
        assert p in kept <==> p in multiset(kept);
      }
    }
  }

  /** With only a price band given, exactly the products priced within
      [priceMin, priceMax] survive. */
  lemma PriceBand(env: Env, st: Store, q: SearchQuery, lo: real, hi: real)
    requires !Truthy(q.query) && q.priceMin.Some? && q.priceMax.Some?
    requires env.parseFloat(q.priceMin.value) == Finite(lo) && env.parseFloat(q.priceMax.value) == Finite(hi)
    requires SearchProducts(env, st, q).result.Ok?
    ensures forall p :: p in SearchProducts(env, st, q).result.value <==>
                          p in st.products && lo <= p.price <= hi
  {
    SearchSelectsMatches(env, st, q);
  }

  /** With only a text query given, exactly the products whose lowercased
      name or description holds the lowercased query at some index survive. */
  lemma TextQueryFindsOccurrences(env: Env, st: Store, q: SearchQuery)
    requires Truthy(q.query) && q.priceMin.None? && q.priceMax.None?
    requires SearchProducts(env, st, q).result.Ok?
    ensures var needle := env.lower(q.query.value);
            forall p :: p in SearchProducts(env, st, q).result.value <==>
                          p in st.products
                          && ((exists i :: OccursAt(env.lower(p.name), needle, i))
                              || (exists i :: OccursAt(env.lower(p.description), needle, i)))
  {
    SearchSelectsMatches(env, st, q);
    var needle := env.lower(q.query.value);
    forall p: Product
      ensures TextMatches(env, q, p) <==>
                (exists i :: OccursAt(env.lower(p.name), needle, i))
                || (exists i :: OccursAt(env.lower(p.description), needle, i))
    {
      IncludesAt(env.lower(p.name), needle);
      IncludesAt(env.lower(p.description), needle);
    }
  }

  /** A price bound that `parseFloat` reads as NaN filters out every product,
      and so does a lower bound of +Infinity or an upper bound of -Infinity. */
  lemma UnparsableBoundEmptiesResult(env: Env, st: Store, q: SearchQuery)
    requires (q.priceMin.Some? && env.parseFloat(q.priceMin.value) in {NaN, Infinity(true)})
             || (q.priceMax.Some? && env.parseFloat(q.priceMax.value) in {NaN, Infinity(false)})
    requires SearchProducts(env, st, q).result.Ok?
    ensures SearchProducts(env, st, q).result.value == []
  {
    SearchSelectsMatches(env, st, q);
  }

  /** Infinite bounds on the open side are no bounds: with no text query, a
      lower bound of -Infinity and an upper bound of +Infinity (each may also
      be absent) keep every product of the table, with its multiplicity. */
  lemma InfiniteBoundsKeepEverything(env: Env, st: Store, q: SearchQuery)
    requires !Truthy(q.query)
    requires q.priceMin.None? || env.parseFloat(q.priceMin.value) == Infinity(false)
    requires q.priceMax.None? || env.parseFloat(q.priceMax.value) == Infinity(true)
    requires SearchProducts(env, st, q).result.Ok?
    ensures multiset(SearchProducts(env, st, q).result.value) == multiset(st.products)
  {
    SearchSelectsMatches(env, st, q);
    FilterAll(st.products, (p: Product) => Matches(env, q, p));
  }

  // ----- addReview -----

  /** The review echoed back to the caller; `comment || ""`. */
  datatype ReviewView = ReviewView(rating: real, userId: string, comment: string, createdAt: int)

  datatype ReviewAdded = ReviewAdded(message: string, review: ReviewView, updatedProduct: Option<Product>)

  /** `addReview`; `now` is the `new Date()` stamped on the review. */
  function AddReview(env: Env, st: Store, token: Option<string>, productId: string, rating: real,
                     comment: Option<string>, now: int): (r: Run<ReviewAdded>)
    ensures r.result.Err? ==> r.store == st && r.result.error.code == 500
                              && r.result.error.kind == "ADD_REVIEW_ERROR"
    ensures r.store.cart == st.cart && r.store.orders == st.orders && r.store.users == st.users
  {
    Catch(AddReviewSteps(env, st, token, productId, rating, comment, now),
          "Unable to add review", "ADD_REVIEW_ERROR")
  }

  function AddReviewSteps(env: Env, st: Store, token: Option<string>, productId: string, rating: real,
                          comment: Option<string>, now: int): Run<ReviewAdded>
  {
    match Authenticate(env.verify, token)
    case Err(e) => Run(st, [], Err(e))
    case Ok(claims) =>
      var userId := claims.userId;
      var findOrders := OrdersFind(userId);
      match env.fault(findOrders)
      case Some(e) => Run(st, [findOrders], Err(e))
      case None =>
        if |OrdersOf(st.orders, userId)| == 0 then
          Run(st, [findOrders], Err(Raise("User has not purchased any products", 403, "NOT_PURCHASED")))
        else
          var get := ProductsGet(productId);
          match env.fault(get)
          case Some(e) => Run(st, [findOrders, get], Err(e))
          case None =>
            match GetProduct(st, productId)
            case None => Run(st, [findOrders, get], Err(Raise("Product not found", 404, "NOT_FOUND")))
            case Some(product) =>
              var review := Review(userId, rating, comment, now);
              var reviews := product.reviews.GetOr([]) + [review];
              var update := ProductsSetReviews(productId, reviews);
              match env.fault(update)
              case Some(e) => Run(st, [findOrders, get, update], Err(e))
              case None =>
                var st' := st.(products := SetReviews(st.products, productId, reviews));
                Run(st', [findOrders, get, update],
                    Ok(ReviewAdded("Review added successfully",
                                   ReviewView(rating, userId, comment.GetOr(""), now),
                                   GetProduct(st', productId))))
  }

  /** The purchase gate: a caller with no orders gets the 403 NOT_PURCHASED
      error re-thrown as a 500 ADD_REVIEW_ERROR, the product is neither read
      nor written, and the store is unchanged. */
  lemma NoOrdersNoReview(env: Env, st: Store, token: Option<string>, productId: string, rating: real,
                         comment: Option<string>, now: int)
    requires Truthy(token) && env.verify(token.value).Ok?
    requires env.fault(OrdersFind(env.verify(token.value).value.userId)).None?
    requires forall o :: o in st.orders ==> o.userId != env.verify(token.value).value.userId
    ensures var r := AddReview(env, st, token, productId, rating, comment, now);
            && r.store == st
            && r.calls == [OrdersFind(env.verify(token.value).value.userId)]
            && r.result == Err(Wrap("Unable to add review", 500, "ADD_REVIEW_ERROR",
                                    Raise("User has not purchased any products", 403, "NOT_PURCHASED")))
  {
    var userId := env.verify(token.value).value.userId;
    FilterNone(st.orders, (o: Order) => o.userId == userId);
  }

  /** A successful review appends exactly one review, authored by the token's
      user, to the product's reviews (an absent list counting as empty); the
      caller had at least one order; every other field of the product, and
      every other product, is unchanged. */
  lemma ReviewAppendsOne(env: Env, st: Store, token: Option<string>, productId: string, rating: real,
                         comment: Option<string>, now: int)
    requires AddReview(env, st, token, productId, rating, comment, now).result.Ok?
    ensures Truthy(token) && env.verify(token.value).Ok?
    ensures var userId := env.verify(token.value).value.userId;
            var r := AddReview(env, st, token, productId, rating, comment, now);
            && (exists o :: o in st.orders && o.userId == userId)
            && GetProduct(st, productId).Some?
            && r.result.value.review.userId == userId
            && |r.store.products| == |st.products|
            && forall i :: 0 <= i < |st.products| ==>
                 var old_ := st.products[i];
                 var new_ := r.store.products[i];
                 if old_.id != productId then new_ == old_
                 else
                   && new_ == old_.(reviews := new_.reviews)
                   && new_.reviews == Some(GetProduct(st, productId).value.reviews.GetOr([])
                                           + [Review(userId, rating, comment, now)])
  {
    var userId := env.verify(token.value).value.userId;
    var mine := OrdersOf(st.orders, userId);
    FilterMembers(st.orders, (o: Order) => o.userId == userId);
    assert mine[0] in mine;
  }

  // ----- getReviews -----

  /** A review joined with its author's username; `comment || ""`. */
  datatype ReviewDetail = ReviewDetail(rating: real, userId: string, username: string,
                                       comment: string, createdAt: int)

  datatype ReviewList = ReviewList(message: string, reviews: seq<ReviewDetail>)

  /** One review's `users.get` and join: a missing user makes `user.username`
      throw. */
  function Detail(env: Env, st: Store, rv: Review): Result<ReviewDetail>
  {
    match env.fault(UsersGet(rv.userId))
    case Some(e) => Err(e)
    case None =>
      match GetUser(st, rv.userId)
      case None => Err(TypeError("Cannot read properties of null (reading 'username')"))
      case Some(u) => Ok(ReviewDetail(rv.rating, rv.userId, u.username, rv.comment.GetOr(""), rv.createdAt))
  }

  /** `Promise.all` over the joins: the first failing review (in list order)
      decides the error, otherwise all details in list order. */
  function Details(env: Env, st: Store, rs: seq<Review>): (r: Result<seq<ReviewDetail>>)
    decreases |rs|
  {
    if |rs| == 0 then Ok([])
    else
      match Detail(env, st, rs[0])
      case Err(e) => Err(e)
      case Ok(d) =>
        match Details(env, st, rs[1..])
        case Err(e) => Err(e)
        case Ok(ds) => Ok([d] + ds)
  }

  /** The user lookups `Promise.all` starts: one per review, in list order. */
  function UserLookups(rs: seq<Review>): seq<Call>
  {
    seq(|rs|, i requires 0 <= i < |rs| => UsersGet(rs[i].userId))
  }

  function GetReviews(env: Env, st: Store, id: string): (r: Run<ReviewList>)
    ensures r.store == st
    ensures r.result.Err? ==> r.result.error.code == 500 && r.result.error.kind == "FETCH_REVIEWS_ERROR"
  {
    var get := ProductsGet(id);
    Catch(
      match env.fault(get)
      case Some(e) => Run(st, [get], Err(e))
      case None =>
        match GetProduct(st, id)
        case None => Run(st, [get], Err(Raise("Product not found", 404, "NOT_FOUND")))
        case Some(product) =>
          match product.reviews
          case None => Run(st, [get], Err(TypeError("Cannot read properties of undefined (reading 'map')")))
          case Some(rs) =>
            var calls := [get] + UserLookups(rs);
            match Details(env, st, rs)
            case Err(e) => Run(st, calls, Err(e))
            case Ok(ds) => Run(st, calls, Ok(ReviewList("Reviews for product with ID " + id, ds))),
      "Unable to fetch reviews", "FETCH_REVIEWS_ERROR")
  }

  /** The join is an order-preserving map: it succeeds exactly when every
      author resolves, and then the i-th detail is the i-th review with its
      author's username. */
  lemma {:induction false} DetailsMapInOrder(env: Env, st: Store, rs: seq<Review>)
    ensures Details(env, st, rs).Ok? <==> forall i :: 0 <= i < |rs| ==> Detail(env, st, rs[i]).Ok?
    ensures Details(env, st, rs).Ok? ==>
              var ds := Details(env, st, rs).value;
              && |ds| == |rs|
              && forall i :: 0 <= i < |rs| ==>
                   && ds[i].rating == rs[i].rating
                   && ds[i].userId == rs[i].userId
                   && ds[i].comment == rs[i].comment.GetOr("")
                   && ds[i].createdAt == rs[i].createdAt
                   && GetUser(st, rs[i].userId).Some?
                   && ds[i].username == GetUser(st, rs[i].userId).value.username
    decreases |rs|
  {
    if |rs| > 0 {
      DetailsMapInOrder(env, st, rs[1..]);
      if Details(env, st, rs).Ok? {
        var ds := Details(env, st, rs).value;
        forall i | 0 < i < |rs| ensures ds[i] == Details(env, st, rs[1..]).value[i - 1] {
        }
      }
      if forall i :: 0 <= i < |rs| ==> Detail(env, st, rs[i]).Ok? {
        assert Detail(env, st, rs[0]).Ok?;
        forall i | 0 <= i < |rs[1..]| ensures Detail(env, st, rs[1..][i]).Ok? {
          assert rs[1..][i] == rs[i + 1];
        }
      }
    }
  }

  /** `getReviews` reads the product, then looks up every review's author in
      list order, and returns one detail per review in the stored order. */
  lemma ReviewsInStoredOrder(env: Env, st: Store, id: string)
    requires GetReviews(env, st, id).result.Ok?
    ensures GetProduct(st, id).Some? && GetProduct(st, id).value.reviews.Some?
    ensures var rs := GetProduct(st, id).value.reviews.value;
            var r := GetReviews(env, st, id);
            && r.calls == [ProductsGet(id)] + UserLookups(rs)
            && |r.result.value.reviews| == |rs|
            && forall i :: 0 <= i < |rs| ==>
                 (r.result.value.reviews[i].userId == rs[i].userId
                  && r.result.value.reviews[i].rating == rs[i].rating)
  {
    DetailsMapInOrder(env, st, GetProduct(st, id).value.reviews.value);
  }
}

=== FILE: common.dfy ===
/** Shared value types: optional values, request results, and the errors the
    services throw. */
module Common {

  /** A value that may be absent: JavaScript's `null`/`undefined` versus a value. */
  datatype Option<+T> = None | Some(value: T) {

    /** `x || d` for a value whose only falsy form is absence. */
    function GetOr(default: T): T {
      match this
      case Some(v) => v
      case None => default
    }
  }

  /** A thrown JavaScript error.
      `moleculer` records whether it is an instance of MoleculerError (the only
      thing `instanceof MoleculerError` looks at), `name` is `error.name`,
      `code` and `kind` are MoleculerError's numeric code and type string
      (0 and "" for errors that carry none), and `cause` is the `{ error }`
      payload a handler attaches when it re-throws. */
  datatype Fault = Fault(moleculer: bool, name: string, message: string,
                         code: int, kind: string, cause: Option<Fault>)

  /** The outcome of a handler: a reply or a thrown error. */
  datatype Result<+T> = Ok(value: T) | Err(error: Fault)

  /** `new MoleculerError(message, code, kind)` */
  function Raise(message: string, code: int, kind: string): Fault
  {
    Fault(true, "MoleculerError", message, code, kind, None)
  }

  /** `new MoleculerError(message, code, kind, { error: inner })`, the shape of
      every handler's outer catch. */
  function Wrap(message: string, code: int, kind: string, inner: Fault): Fault
  {
    Fault(true, "MoleculerError", message, code, kind, Some(inner))
  }

  /** A TypeError the JavaScript engine raises (reading a property of undefined). */
  function TypeError(message: string): Fault
  {
    Fault(false, "TypeError", message, 0, "", None)
  }

  /** JavaScript truthiness of an optional string: `null`, `undefined` and ""
      are falsy. */
  predicate Truthy(s: Option<string>) {
    s.Some? && s.value != ""
  }
}

=== FILE: orders.dfy ===
/** The order service: placing an order from the caller's cart, and listing
    the caller's orders. */
module Orders {
  import opened Common
  import opened Seqs
  import opened Auth
  import opened Backend
  import Cart
  import Catalog

  // ----- pricing -----

  /** The product lookup for one cart line succeeds: no error from the store
      and a row with that id. */
  predicate Resolves(env: Env, st: Store, productId: string) {
    env.fault(ProductsGet(productId)).None? && GetProduct(st, productId).Some?
  }

  /** The current price of a product, 0 for an unknown id. */
  function PriceOf(st: Store, productId: string): real {
    match GetProduct(st, productId)
    case Some(p) => p.price
    case None => 0.0
  }

  /** `product.price * item.quantity`. */
  function LineCost(price: real, line: CartLine): real {
    price * line.quantity
  }

  /** Reference total: the sum of price times quantity over the lines. */
  function Subtotal(st: Store, items: seq<CartLine>): real
    decreases |items|
  {
    if |items| == 0 then 0.0
    else LineCost(PriceOf(st, items[0].productId), items[0]) + Subtotal(st, items[1..])
  }

  /** The lookups placeOrder makes: one per line, in cart order. */
  function Lookups(items: seq<CartLine>): seq<Call>
  {
    seq(|items|, i requires 0 <= i < |items| => ProductsGet(items[i].productId))
  }

  /** The lookups of a nonempty prefix: the first line's, then those of the
      rest of the prefix. */
  lemma LookupsCons(items: seq<CartLine>, k: nat)
    requires k < |items|
    ensures Lookups(items[..k + 1]) == [ProductsGet(items[0].productId)] + Lookups(items[1..][..k])
  {
  }

  /** The calls the pricing loop made, and the total or the error that ended it. */
  datatype Priced = Priced(calls: seq<Call>, total: Result<real>)

  /** The pricing loop: `totalPrice += product.price * item.quantity` for each
      line in order, each product fetched through `product.getProductById`;
      the first failing lookup ends the loop. */
  function Price(env: Env, st: Store, items: seq<CartLine>, acc: real): Priced
    decreases |items|
  {
    if |items| == 0 then Priced([], Ok(acc))
    else
      var head := Catalog.GetProductById(env, st, items[0].productId);
      match head.result
      case Err(e) => Priced(head.calls, Err(e))
      case Ok(p) =>
        var rest := Price(env, st, items[1..], acc + LineCost(p.price, items[0]));
        Priced(head.calls + rest.calls, rest.total)
  }

  /** The pricing loop looks the lines up one by one, in order: its calls are
      the lookups of a prefix of the lines, all of them when it succeeds. */
  lemma {:induction false} PriceLooksUpInOrder(env: Env, st: Store, items: seq<CartLine>, acc: real)
    ensures var pr := Price(env, st, items, acc);
            && |pr.calls| <= |items|
            && pr.calls == Lookups(items[..|pr.calls|])
            && (pr.total.Ok? ==> |pr.calls| == |items|)
            && (pr.total.Err? ==> 1 <= |pr.calls|)
    decreases |items|
  {
    var pr := Price(env, st, items, acc);
    if |items| == 0 {
      assert pr.calls == Lookups(items[..0]);
    } else {
      var head := Catalog.GetProductById(env, st, items[0].productId);
      if head.result.Ok? {
        var acc' := acc + LineCost(head.result.value.price, items[0]);
        var rest := Price(env, st, items[1..], acc');
        PriceLooksUpInOrder(env, st, items[1..], acc');
        assert pr.calls == [ProductsGet(items[0].productId)] + rest.calls;
        LookupsCons(items, |rest.calls|);
      } else {
        assert pr.calls == Lookups(items[..1]);
      }
    }
  }

  /** A pricing loop that succeeds found every line's product. */
  lemma {:induction false} PriceOkResolvesAll(env: Env, st: Store, items: seq<CartLine>, acc: real)
    requires Price(env, st, items, acc).total.Ok?
    ensures forall i :: 0 <= i < |items| ==> Resolves(env, st, items[i].productId)
    decreases |items|
  {
    if |items| > 0 {
      var head := Catalog.GetProductById(env, st, items[0].productId);
      var acc' := acc + LineCost(head.result.value.price, items[0]);
      PriceOkResolvesAll(env, st, items[1..], acc');
      forall i | 0 < i < |items| ensures items[i] == items[1..][i - 1] {
      }
    }
  }

  /** A pricing loop that fails ended on the first line whose product does
      not resolve, with that lookup's error. */
  lemma {:induction false} PriceErrIsFirstFailure(env: Env, st: Store, items: seq<CartLine>, acc: real)
    requires Price(env, st, items, acc).total.Err?
    ensures var pr := Price(env, st, items, acc);
            && 1 <= |pr.calls| <= |items|
            && !Resolves(env, st, items[|pr.calls| - 1].productId)
            && (forall i :: 0 <= i < |pr.calls| - 1 ==> Resolves(env, st, items[i].productId))
            && pr.total.error == Catalog.GetProductById(env, st, items[|pr.calls| - 1].productId).result.error
    decreases |items|
  {
    var head := Catalog.GetProductById(env, st, items[0].productId);
    if head.result.Ok? {
      var acc' := acc + LineCost(head.result.value.price, items[0]);
      PriceErrIsFirstFailure(env, st, items[1..], acc');
      var rest := Price(env, st, items[1..], acc');
      assert Price(env, st, items, acc).calls == [ProductsGet(items[0].productId)] + rest.calls;
      forall i | 0 < i < |items| ensures items[i] == items[1..][i - 1] {
      }
    }
  }

  /** The pricing loop stops at the first line whose product does not
      resolve: it succeeds exactly when every line resolves, and otherwise its
      last lookup is the first failing one and its error is that lookup's
      error. */
  lemma PriceStopsAtFirstFailure(env: Env, st: Store, items: seq<CartLine>, acc: real)
    ensures var pr := Price(env, st, items, acc);
            && |pr.calls| <= |items|
            && pr.calls == Lookups(items[..|pr.calls|])
            && (pr.total.Ok? ==> |pr.calls| == |items|
                                 && forall i :: 0 <= i < |items| ==> Resolves(env, st, items[i].productId))
            && (pr.total.Err? ==>
                  && 1 <= |pr.calls|
                  && !Resolves(env, st, items[|pr.calls| - 1].productId)
                  && (forall i :: 0 <= i < |pr.calls| - 1 ==> Resolves(env, st, items[i].productId))
                  && pr.total.error == Catalog.GetProductById(env, st, items[|pr.calls| - 1].productId).result.error)
  {
    PriceLooksUpInOrder(env, st, items, acc);
    if Price(env, st, items, acc).total.Ok? {
      PriceOkResolvesAll(env, st, items, acc);
    } else {
      PriceErrIsFirstFailure(env, st, items, acc);
    }
  }

  /** When the pricing loop succeeds its total is the running sum plus
      Σ price × quantity over the lines. */
  lemma {:induction false} PriceIsSubtotal(env: Env, st: Store, items: seq<CartLine>, acc: real)
    requires Price(env, st, items, acc).total.Ok?
    ensures Price(env, st, items, acc).total.value == acc + Subtotal(st, items)
    decreases |items|
  {
    if |items| > 0 {
      var head := Catalog.GetProductById(env, st, items[0].productId);
      var p := head.result.value;
      assert p == GetProduct(st, items[0].productId).value;
      PriceIsSubtotal(env, st, items[1..], acc + LineCost(p.price, items[0]));
    }
  }

  // ----- clearing the cart -----

  /** The removals placeOrder issues: one per line, in cart order. */
  function Removals(items: seq<CartLine>): seq<Call>
  {
    seq(|items|, i requires 0 <= i < |items| => CartRemove(items[i].id))
  }

  /** The removals of a nonempty prefix: the first line's, then those of the
      rest of the prefix. */
  lemma RemovalsCons(items: seq<CartLine>, k: nat)
    requires k < |items|
    ensures Removals(items[..k + 1]) == [CartRemove(items[0].id)] + Removals(items[1..][..k])
  {
  }

  /** The cart table after the clearing loop, the removals it issued, and the
      error that stopped it, if any. */
  datatype Cleared = Cleared(cart: seq<CartLine>, calls: seq<Call>, failure: Option<Fault>)

  /** The clearing loop: `cart.removeCartItem({ id })` for each line in order;
      the first failing removal ends the loop. */
  function Clear(env: Env, cart: seq<CartLine>, items: seq<CartLine>): Cleared
    decreases |items|
  {
    if |items| == 0 then Cleared(cart, [], None)
    else
      var c := CartRemove(items[0].id);
      match env.fault(c)
      case Some(e) => Cleared(cart, [c], Some(e))
      case None =>
        var rest := Clear(env, RemoveLine(cart, items[0].id), items[1..]);
        Cleared(rest.cart, [c] + rest.calls, rest.failure)
  }

  /** How many lines the clearing loop removed. */
  function RemovedCount(c: Cleared): int {
    if c.failure.None? then |c.calls| else |c.calls| - 1
  }

  /** The clearing loop issues the removals of a prefix of the lines: all of
      them when it succeeds, at least one when it fails. */
  lemma {:induction false} ClearIssuesPrefix(env: Env, cart: seq<CartLine>, items: seq<CartLine>)
    ensures var c := Clear(env, cart, items);
            && |c.calls| <= |items|
            && c.calls == Removals(items[..|c.calls|])
            && (c.failure.None? ==> |c.calls| == |items|)
            && (c.failure.Some? ==> 1 <= |c.calls|)
    decreases |items|
  {
    var c := Clear(env, cart, items);
    if |items| == 0 {
      assert c.calls == Removals(items[..0]);
    } else if env.fault(CartRemove(items[0].id)).Some? {
      assert c.calls == Removals(items[..1]);
    } else {
      var cart' := RemoveLine(cart, items[0].id);
      ClearIssuesPrefix(env, cart', items[1..]);
      var rest := Clear(env, cart', items[1..]);
      assert c.calls == [CartRemove(items[0].id)] + rest.calls;
      RemovalsCons(items, |rest.calls|);
    }
  }

  /** A clearing loop that succeeds met no failing removal. */
  lemma {:induction false} ClearOkRemovesAll(env: Env, cart: seq<CartLine>, items: seq<CartLine>)
    requires Clear(env, cart, items).failure.None?
    ensures forall i :: 0 <= i < |items| ==> env.fault(CartRemove(items[i].id)).None?
    decreases |items|
  {
    if |items| > 0 {
      ClearOkRemovesAll(env, RemoveLine(cart, items[0].id), items[1..]);
      forall i | 0 < i < |items| ensures items[i] == items[1..][i - 1] {
      }
    }
  }

  /** A clearing loop that fails ended on the first failing removal, with
      that removal's error. */
  lemma {:induction false} ClearErrIsFirstFailure(env: Env, cart: seq<CartLine>, items: seq<CartLine>)
    requires Clear(env, cart, items).failure.Some?
    ensures var c := Clear(env, cart, items);
            && 1 <= |c.calls| <= |items|
            && c.failure == env.fault(CartRemove(items[|c.calls| - 1].id))
            && forall i :: 0 <= i < |c.calls| - 1 ==> env.fault(CartRemove(items[i].id)).None?
    decreases |items|
  {
    if env.fault(CartRemove(items[0].id)).None? {
      var cart' := RemoveLine(cart, items[0].id);
      ClearErrIsFirstFailure(env, cart', items[1..]);
      var rest := Clear(env, cart', items[1..]);
      assert Clear(env, cart, items).calls == [CartRemove(items[0].id)] + rest.calls;
      forall i | 0 < i < |items| ensures items[i] == items[1..][i - 1] {
      }
    }
  }

  /** Removal is done once per line in sequence and the first failure stops
      the rest: the loop issues the removals of a prefix of the lines; it
      succeeds exactly when every removal succeeds, and otherwise its last
      call is the first failing removal and its error is that call's error. */
  lemma ClearStopsAtFirstFailure(env: Env, cart: seq<CartLine>, items: seq<CartLine>)
    ensures var c := Clear(env, cart, items);
            && |c.calls| <= |items|
            && c.calls == Removals(items[..|c.calls|])
            && (c.failure.None? ==> |c.calls| == |items|
                                    && forall i :: 0 <= i < |items| ==> env.fault(CartRemove(items[i].id)).None?)
            && (c.failure.Some? ==>
                  && 1 <= |c.calls|
                  && c.failure == env.fault(CartRemove(items[|c.calls| - 1].id))
                  && forall i :: 0 <= i < |c.calls| - 1 ==> env.fault(CartRemove(items[i].id)).None?)
  {
    ClearIssuesPrefix(env, cart, items);
    if Clear(env, cart, items).failure.None? {
      ClearOkRemovesAll(env, cart, items);
    } else {
      ClearErrIsFirstFailure(env, cart, items);
    }
  }

  /** The rows the clearing loop leaves are the rows of the table whose id is
      not among the lines it removed. */
  lemma {:induction false} ClearRemovesPrefix(env: Env, cart: seq<CartLine>, items: seq<CartLine>)
    ensures var c := Clear(env, cart, items);
            && 0 <= RemovedCount(c) <= |items|
            && forall l :: l in c.cart <==>
                 l in cart && forall i :: 0 <= i < RemovedCount(c) ==> l.id != items[i].id
    decreases |items|
  {
    if |items| > 0 && env.fault(CartRemove(items[0].id)).None? {
      var cart' := RemoveLine(cart, items[0].id);
      FilterMembers(cart, (l: CartLine) => l.id != items[0].id);
      ClearRemovesPrefix(env, cart', items[1..]);
      forall i | 0 < i < |items| ensures items[i] == items[1..][i - 1] {
      }
    }
  }
  // ----- placeOrder -----

  /** The reply of `placeOrder`. */
  datatype Placed = Placed(message: string, order: Order)

  /** The `length` JavaScript reads from getCart's reply. The reply is the
      object `{ message, cartItems }`, which has no `length` property, so the
      read gives `undefined`. */
  function ReplyLength(view: Cart.CartView): Option<nat> {
    None
  }

  /** The CART_EMPTY test. As written (`corrected` false) it compares the
      reply's `length` with 0; the corrected test compares the number of cart
      rows with 0. */
  predicate CartEmpty(view: Cart.CartView, corrected: bool) {
    if corrected then |view.cartItems| == 0 else ReplyLength(view) == Some(0)
  }

  /** The body of the `try` in `placeOrder`. */
  function PlaceSteps(env: Env, st: Store, token: Option<string>, newId: string,
                      corrected: bool): Run<Placed>
  {
    match Authenticate(env.verify, token)
    case Err(e) => Run(st, [], Err(e))
    case Ok(claims) =>
      var cart := Cart.GetCart(env, st, token);
      match cart.result
      case Err(e) => Run(st, cart.calls, Err(e))
      case Ok(view) =>
        if CartEmpty(view, corrected) then
          Run(st, cart.calls, Err(Raise("Cart is empty", 400, "CART_EMPTY")))
        else
          var priced := Price(env, st, view.cartItems, 0.0);
          var fetched := cart.calls + priced.calls;
          match priced.total
          case Err(e) => Run(st, fetched, Err(e))
          case Ok(total) =>
            var create := OrdersCreate(claims.userId, total, Pending);
            match env.fault(create)
            case Some(e) => Run(st, fetched + [create], Err(e))
            case None =>
              var order := Order(newId, claims.userId, total, Pending, None);
              var cleared := Clear(env, st.cart, view.cartItems);
              Run(st.(orders := st.orders + [order], cart := cleared.cart),
                  fetched + [create] + cleared.calls,
                  match cleared.failure
                  case Some(e) => Err(e)
                  case None => Ok(Placed("Order placed successfully", order)))
  }

  /** `order.placeOrder` as written; `newId` is the id the orders table assigns. */
  function PlaceOrder(env: Env, st: Store, token: Option<string>, newId: string): (r: Run<Placed>)
    ensures r.store.products == st.products && r.store.users == st.users
    ensures r.result.Err? ==> r.result.error.code == 500 && r.result.error.kind == "PLACE_ORDER_ERROR"
  {
    Catch(PlaceSteps(env, st, token, newId, false), "Unable to place order", "PLACE_ORDER_ERROR")
  }

  /** `order.placeOrder` with the CART_EMPTY test reading the number of cart rows. */
  function PlaceOrderGuarded(env: Env, st: Store, token: Option<string>, newId: string): (r: Run<Placed>)
    ensures r.store.products == st.products && r.store.users == st.users
    ensures r.result.Err? ==> r.result.error.code == 500 && r.result.error.kind == "PLACE_ORDER_ERROR"
  {
    Catch(PlaceSteps(env, st, token, newId, true), "Unable to place order", "PLACE_ORDER_ERROR")
  }

  /** The caller's cart lines as placeOrder reads them. */
  function MyLines(env: Env, st: Store, token: Option<string>): seq<CartLine>
    requires Truthy(token) && env.verify(token.value).Ok?
  {
    CartOf(st.cart, env.verify(token.value).value.userId)
  }

  /** The reads before the order is created: the cart query, then one product
      lookup per line in cart order. */
  predicate ReadsSucceed(env: Env, st: Store, token: Option<string>) {
    && Truthy(token) && env.verify(token.value).Ok?
    && env.fault(CartFind(env.verify(token.value).value.userId)).None?
    && forall l :: l in MyLines(env, st, token) ==> Resolves(env, st, l.productId)
  }

  /** Without a token nothing is read or written: no cart, product or order
      call is made, and the 401 NO_TOKEN error comes back as PLACE_ORDER_ERROR. */
  lemma NoTokenNoCalls(env: Env, st: Store, token: Option<string>, newId: string)
    requires !Truthy(token)
    ensures PlaceOrder(env, st, token, newId)
              == Run(st, [], Err(Wrap("Unable to place order", 500, "PLACE_ORDER_ERROR",
                                      Raise("No token provided", 401, "NO_TOKEN"))))
  {
  }

  /** When every read succeeds, the cart read returns the caller's lines and
      the pricing loop looks each of them up in order and totals
      Σ price × quantity. */
  lemma PlaceAfterReads(env: Env, st: Store, token: Option<string>)
    requires ReadsSucceed(env, st, token)
    ensures var userId := env.verify(token.value).value.userId;
            var items := MyLines(env, st, token);
            && Cart.GetCart(env, st, token) == Run(st, [CartFind(userId)], Ok(Cart.CartView("User's cart", items)))
            && Price(env, st, items, 0.0) == Priced(Lookups(items), Ok(Subtotal(st, items)))
  {
    var items := MyLines(env, st, token);
    forall i | 0 <= i < |items| ensures Resolves(env, st, items[i].productId) {
      assert items[i] in items;
    }
    PriceStopsAtFirstFailure(env, st, items, 0.0);
    PriceIsSubtotal(env, st, items, 0.0);
    assert items[..|items|] == items;
  }

  /** Every read succeeds: the calls are the cart query, one product lookup
      per line in cart order, then the creation of a pending order for the
      token's user whose total is Σ price × quantity over those lines. */
  lemma PricingReadsEachLine(env: Env, st: Store, token: Option<string>, newId: string)
    requires ReadsSucceed(env, st, token)
    ensures var userId := env.verify(token.value).value.userId;
            var items := MyLines(env, st, token);
            var r := PlaceOrder(env, st, token, newId);
            && |r.calls| > |items| + 1
            && r.calls[..|items| + 1] == [CartFind(userId)] + Lookups(items)
            && r.calls[|items| + 1] == OrdersCreate(userId, Subtotal(st, items), Pending)
  {
    var items := MyLines(env, st, token);
    PlaceAfterReads(env, st, token);
    PlaceCallsAfterCartRead(env, st, token, newId);
    var r := PlaceOrder(env, st, token, newId);
    var fetched := [CartFind(env.verify(token.value).value.userId)] + Lookups(items);
    assert r.calls[..|fetched|] == fetched;
  }

  /** A placed order belongs to the token's user, is pending, carries
      Σ price × quantity over that user's cart lines (at the prices read
      during placement), is appended to the orders table, and every one of
      the caller's lines is gone from the cart while other rows stay. */
  lemma PlacedOrderIsPricedCart(env: Env, st: Store, token: Option<string>, newId: string)
    requires PlaceOrder(env, st, token, newId).result.Ok?
    ensures ReadsSucceed(env, st, token)
    ensures var userId := env.verify(token.value).value.userId;
            var items := MyLines(env, st, token);
            var r := PlaceOrder(env, st, token, newId);
            var order := r.result.value.order;
            && order == Order(newId, userId, Subtotal(st, items), Pending, None)
            && r.store.orders == st.orders + [order]
            && forall l :: l in r.store.cart <==>
                 l in st.cart && forall i :: 0 <= i < |items| ==> l.id != items[i].id
  {
    var items := MyLines(env, st, token);
    PlacedMeansEveryStepSucceeded(env, st, token, newId);
    PlaceAfterCreate(env, st, token, newId);
    ClearIssuesPrefix(env, st.cart, items);
    ClearRemovesPrefix(env, st.cart, items);
  }

  /** A placement that succeeds passed every step: the reads, the order
      creation at Σ price × quantity, and every removal. */
  lemma PlacedMeansEveryStepSucceeded(env: Env, st: Store, token: Option<string>, newId: string)
    requires PlaceOrder(env, st, token, newId).result.Ok?
    ensures ReadsSucceed(env, st, token)
    ensures var userId := env.verify(token.value).value.userId;
            var items := MyLines(env, st, token);
            && env.fault(OrdersCreate(userId, Subtotal(st, items), Pending)).None?
            && Clear(env, st.cart, items).failure.None?
  {
    assert Authenticate(env.verify, token) == Ok(env.verify(token.value).value);
    var items := MyLines(env, st, token);
    PriceOkResolvesAll(env, st, items, 0.0);
    PriceIsSubtotal(env, st, items, 0.0);
    forall l | l in items ensures Resolves(env, st, l.productId) {
      var i :| 0 <= i < |items| && items[i] == l;
    }
  }

  /** If some line's product lookup fails, no order is created and no cart row
      is removed: the store is unchanged and every call made is a read. */
  lemma FailedLookupWritesNothing(env: Env, st: Store, token: Option<string>, newId: string)
    requires Truthy(token) && env.verify(token.value).Ok?
    requires env.fault(CartFind(env.verify(token.value).value.userId)).None?
    requires exists l :: l in MyLines(env, st, token) && !Resolves(env, st, l.productId)
    ensures var r := PlaceOrder(env, st, token, newId);
            && r.store == st
            && r.result.Err? && r.result.error.kind == "PLACE_ORDER_ERROR"
            && forall c :: c in r.calls ==> c.CartFind? || c.ProductsGet?
  {
    assert Authenticate(env.verify, token) == Ok(env.verify(token.value).value);
    var items := MyLines(env, st, token);
    var priced := Price(env, st, items, 0.0);
    assert priced.total.Err? by {
      var l :| l in items && !Resolves(env, st, l.productId);
      var j :| 0 <= j < |items| && items[j] == l;
      if priced.total.Ok? {
        PriceOkResolvesAll(env, st, items, 0.0);
      }
    }
    PriceCallsAreLookups(env, st, items, 0.0);
    assert forall c :: c in priced.calls ==> c.ProductsGet?;
  }

  /** The calls split at `n`: reads before it, then, if the placement got that
      far, one OrdersCreate at `n` followed only by cart removals. */
  predicate CallPhases(calls: seq<Call>, n: int) {
    && 0 <= n <= |calls|
    && (forall i :: 0 <= i < n ==> calls[i].CartFind? || calls[i].ProductsGet?)
    && (n < |calls| ==> calls[n].OrdersCreate? && forall i :: n < i < |calls| ==> calls[i].CartRemove?)
  }

  /** The order is created before any cart row is deleted: every placement
      reads first, then creates at most one order, and only after that removes
      cart rows. */
  lemma OrderCreatedBeforeAnyRemoval(env: Env, st: Store, token: Option<string>, newId: string)
    ensures exists n :: CallPhases(PlaceOrder(env, st, token, newId).calls, n)
  {
    var calls := PlaceOrder(env, st, token, newId).calls;
    if !Truthy(token) || env.verify(token.value).Err? || Cart.GetCart(env, st, token).result.Err? {
      PlaceCallsWithoutCartRead(env, st, token, newId);
      assert CallPhases(calls, |calls|);
    } else {
      var userId := env.verify(token.value).value.userId;
      var items := Cart.GetCart(env, st, token).result.value.cartItems;
      var priced := Price(env, st, items, 0.0);
      var createFails := priced.total.Ok? && env.fault(OrdersCreate(userId, priced.total.value, Pending)).Some?;
      var removals := Clear(env, st.cart, items).calls;
      PlaceCallsAfterCartRead(env, st, token, newId);
      PriceCallsAreLookups(env, st, items, 0.0);
      ClearCallsAreRemovals(env, st.cart, items);
      PhasesAfterCartRead(userId, priced, createFails, removals);
    }
  }

  /** A placement that gets no cart rows makes no call beyond the cart query. */
  lemma PlaceCallsWithoutCartRead(env: Env, st: Store, token: Option<string>, newId: string)
    requires !Truthy(token) || env.verify(token.value).Err? || Cart.GetCart(env, st, token).result.Err?
    ensures forall i :: 0 <= i < |PlaceOrder(env, st, token, newId).calls| ==>
              PlaceOrder(env, st, token, newId).calls[i].CartFind?
  {
    if Truthy(token) && env.verify(token.value).Ok? {
      assert Authenticate(env.verify, token) == Ok(env.verify(token.value).value);
      assert PlaceOrder(env, st, token, newId).calls == Cart.GetCart(env, st, token).calls;
    }
  }

  /** The calls of a placement for `userId` once the cart query has answered:
      the query and the pricing loop's lookups, then the order creation if
      pricing succeeded, then the clearing loop's `removals` unless the
      creation failed. */
  function PlacementCalls(userId: string, priced: Priced, createFails: bool, removals: seq<Call>): seq<Call> {
    var fetched := [CartFind(userId)] + priced.calls;
    if priced.total.Err? then fetched
    else
      var create := OrdersCreate(userId, priced.total.value, Pending);
      if createFails then fetched + [create] else fetched + [create] + removals
  }

  lemma PlaceCallsAfterCartRead(env: Env, st: Store, token: Option<string>, newId: string)
    requires Truthy(token) && env.verify(token.value).Ok?
    requires Cart.GetCart(env, st, token).result.Ok?
    ensures var userId := env.verify(token.value).value.userId;
            var items := Cart.GetCart(env, st, token).result.value.cartItems;
            var priced := Price(env, st, items, 0.0);
            PlaceOrder(env, st, token, newId).calls
              == PlacementCalls(userId, priced,
                                priced.total.Ok? && env.fault(OrdersCreate(userId, priced.total.value, Pending)).Some?,
                                Clear(env, st.cart, items).calls)
  {
    assert Authenticate(env.verify, token) == Ok(env.verify(token.value).value);
  }

  /** Every call of the pricing loop is a product lookup. */
  lemma PriceCallsAreLookups(env: Env, st: Store, items: seq<CartLine>, acc: real)
    ensures forall i :: 0 <= i < |Price(env, st, items, acc).calls| ==> Price(env, st, items, acc).calls[i].ProductsGet?
  {
    PriceLooksUpInOrder(env, st, items, acc);
  }

  /** Every call of the clearing loop is a cart removal. */
  lemma ClearCallsAreRemovals(env: Env, cart: seq<CartLine>, items: seq<CartLine>)
    ensures forall i :: 0 <= i < |Clear(env, cart, items).calls| ==> Clear(env, cart, items).calls[i].CartRemove?
  {
    ClearIssuesPrefix(env, cart, items);
  }

  /** Reads, then at most one creation, then removals: the calls split where
      the reads end. */
  lemma PhasesAfterCartRead(userId: string, priced: Priced, createFails: bool, removals: seq<Call>)
    requires forall i :: 0 <= i < |priced.calls| ==> priced.calls[i].ProductsGet?
    requires forall i :: 0 <= i < |removals| ==> removals[i].CartRemove?
    ensures CallPhases(PlacementCalls(userId, priced, createFails, removals), 1 + |priced.calls|)
  {
  }

  /** When every read and the order creation succeed, the placement writes the
      pending order, runs the clearing loop over the caller's lines, and
      reports the clearing loop's error if it has one. */
  lemma PlaceAfterCreate(env: Env, st: Store, token: Option<string>, newId: string)
    requires ReadsSucceed(env, st, token)
    requires var userId := env.verify(token.value).value.userId;
             env.fault(OrdersCreate(userId, Subtotal(st, MyLines(env, st, token)), Pending)).None?
    ensures var userId := env.verify(token.value).value.userId;
            var items := MyLines(env, st, token);
            var order := Order(newId, userId, Subtotal(st, items), Pending, None);
            var cleared := Clear(env, st.cart, items);
            var r := PlaceOrder(env, st, token, newId);
            && r.store == st.(orders := st.orders + [order], cart := cleared.cart)
            && r.result == match cleared.failure
                           case Some(e) => Err(Wrap("Unable to place order", 500, "PLACE_ORDER_ERROR", e))
                           case None => Ok(Placed("Order placed successfully", order))
  {
    PlaceAfterReads(env, st, token);
  }

  /** Line `k` is the first of `items` whose removal fails. */
  predicate FirstFailedRemoval(env: Env, items: seq<CartLine>, k: int) {
    && 0 <= k < |items|
    && env.fault(CartRemove(items[k].id)).Some?
    && forall i :: 0 <= i < k ==> env.fault(CartRemove(items[i].id)).None?
  }

  /** A failure while clearing the cart still reports PLACE_ORDER_ERROR,
      caused by the first failing removal, although the pending order has
      already been written and the lines before the failing one are gone. */
  lemma ClearFailureStillFailsAfterCommit(env: Env, st: Store, token: Option<string>, newId: string, k: int)
    requires ReadsSucceed(env, st, token)
    requires var userId := env.verify(token.value).value.userId;
             env.fault(OrdersCreate(userId, Subtotal(st, MyLines(env, st, token)), Pending)).None?
    requires FirstFailedRemoval(env, MyLines(env, st, token), k)
    ensures var userId := env.verify(token.value).value.userId;
            var items := MyLines(env, st, token);
            var r := PlaceOrder(env, st, token, newId);
            && r.store.orders == st.orders + [Order(newId, userId, Subtotal(st, items), Pending, None)]
            && r.result == Err(Wrap("Unable to place order", 500, "PLACE_ORDER_ERROR",
                                    env.fault(CartRemove(items[k].id)).value))
            && forall l :: l in r.store.cart <==>
                 l in st.cart && forall i :: 0 <= i < k ==> l.id != items[i].id
  {
    var items := MyLines(env, st, token);
    PlaceAfterCreate(env, st, token, newId);
    var cleared := Clear(env, st.cart, items);
    assert cleared.failure.Some? by {
      if cleared.failure.None? {
        ClearOkRemovesAll(env, st.cart, items);
      }
    }
    ClearErrIsFirstFailure(env, st.cart, items);
    assert |cleared.calls| - 1 == k;
    ClearRemovesPrefix(env, st.cart, items);
  }

  /** As written, an empty cart does not trigger CART_EMPTY: the test reads
      `length` of the reply object, never 0, so a caller with no cart rows gets
      a pending order with total 0. */
  lemma EmptyCartPlacesOrder(env: Env, st: Store, token: Option<string>, newId: string)
    requires Truthy(token) && env.verify(token.value).Ok?
    requires var userId := env.verify(token.value).value.userId;
             && env.fault(CartFind(userId)).None?
             && env.fault(OrdersCreate(userId, 0.0, Pending)).None?
             && forall l :: l in st.cart ==> l.userId != userId
    ensures var userId := env.verify(token.value).value.userId;
            PlaceOrder(env, st, token, newId).result
              == Ok(Placed("Order placed successfully", Order(newId, userId, 0.0, Pending, None)))
  {
    var userId := env.verify(token.value).value.userId;
    FilterNone(st.cart, (l: CartLine) => l.userId == userId);
  }

  /** With the corrected test, a caller with no cart rows gets CART_EMPTY
      (wrapped as PLACE_ORDER_ERROR) and nothing is written; on a non-empty
      cart the corrected placement behaves exactly as written. */
  lemma GuardedRejectsEmptyCart(env: Env, st: Store, token: Option<string>, newId: string)
    requires Truthy(token) && env.verify(token.value).Ok?
    requires env.fault(CartFind(env.verify(token.value).value.userId)).None?
    ensures var userId := env.verify(token.value).value.userId;
            (forall l :: l in st.cart ==> l.userId != userId) ==>
              PlaceOrderGuarded(env, st, token, newId)
                == Run(st, [CartFind(userId)],
                       Err(Wrap("Unable to place order", 500, "PLACE_ORDER_ERROR",
                                Raise("Cart is empty", 400, "CART_EMPTY"))))
    ensures var userId := env.verify(token.value).value.userId;
            (exists l :: l in st.cart && l.userId == userId) ==>
              PlaceOrderGuarded(env, st, token, newId) == PlaceOrder(env, st, token, newId)
  {
    var userId := env.verify(token.value).value.userId;
    if forall l :: l in st.cart ==> l.userId != userId {
      FilterNone(st.cart, (l: CartLine) => l.userId == userId);
    } else {
      FilterMembers(st.cart, (l: CartLine) => l.userId == userId);
      var l :| l in st.cart && l.userId == userId;
      assert l in CartOf(st.cart, userId);
    }
  }

  // ----- getOrders -----

  datatype OrderList = OrderList(message: string, orders: seq<Order>)

  /** `order.getOrders`: the orders whose userId is the token's userId. */
  function GetOrders(env: Env, st: Store, token: Option<string>): (r: Run<OrderList>)
    ensures r.store == st
    ensures r.result.Err? ==> r.result.error.code == 500 && r.result.error.kind == "FETCH_ERROR"
  {
    Catch(
      match Authenticate(env.verify, token)
      case Err(e) => Run(st, [], Err(e))
      case Ok(claims) =>
        var find := OrdersFind(claims.userId);
        match env.fault(find)
        case Some(e) => Run(st, [find], Err(e))
        case None => Run(st, [find], Ok(OrderList("List of all orders", OrdersOf(st.orders, claims.userId)))),
      "Unable to fetch orders", "FETCH_ERROR")
  }

  /** The order list is scoped by the token: exactly the orders owned by the
      token's user, in table order, so no order of another user ever appears. */
  lemma GetOrdersIsOwnerScoped(env: Env, st: Store, token: Option<string>)
    requires GetOrders(env, st, token).result.Ok?
    ensures Truthy(token) && env.verify(token.value).Ok?
    ensures var userId := env.verify(token.value).value.userId;
            var mine := GetOrders(env, st, token).result.value.orders;
            && (forall o :: o in mine <==> o in st.orders && o.userId == userId)
            && (forall o :: multiset(mine)[o] == if o.userId == userId then multiset(st.orders)[o] else 0)
            && IsSubsequence(mine, st.orders)
  {
    var userId := env.verify(token.value).value.userId;
    forall o {
      FilterCounts(st.orders, (o: Order) => o.userId == userId, o);
    }
    FilterMembers(st.orders, (o: Order) => o.userId == userId);
    FilterIsSubsequence(st.orders, (o: Order) => o.userId == userId);
  }
}

=== FILE: seqs.dfy ===
/** Order-preserving selection over sequences: the model of JavaScript's
    `Array.prototype.filter` and of a store query by one column. */
module Seqs {
  import opened Common

  /** The elements of `s` that satisfy `p`, in their original order. */
  function Filter<T>(s: seq<T>, p: T -> bool): (r: seq<T>)
    ensures |r| <= |s|
    ensures forall i :: 0 <= i < |r| ==> p(r[i])
    decreases |s|
  {
    if |s| == 0 then []
    else if p(s[0]) then [s[0]] + Filter(s[1..], p)
    else Filter(s[1..], p)
  }

  /** `a` can be obtained from `b` by deleting elements. */
  predicate IsSubsequence<T(==)>(a: seq<T>, b: seq<T>)
    decreases |b|
  {
    if |a| == 0 then true
    else if |b| == 0 then false
    else if a[0] == b[0] then IsSubsequence(a[1..], b[1..])
    else IsSubsequence(a, b[1..])
  }

  /** Filtering keeps exactly the elements satisfying `p`, with their
      multiplicities: nothing is invented, nothing that qualifies is dropped. */
  lemma {:induction false} FilterCounts<T>(s: seq<T>, p: T -> bool, x: T)
    ensures multiset(Filter(s, p))[x] == if p(x) then multiset(s)[x] else 0
    decreases |s|
  {
    if |s| > 0 {
      FilterCounts(s[1..], p, x);
      assert s == [s[0]] + s[1..];
    }
  }

  /** Membership form of `FilterCounts`. */
  lemma FilterMembers<T>(s: seq<T>, p: T -> bool)
    ensures forall x :: x in Filter(s, p) <==> x in s && p(x)
  {
    forall x ensures x in Filter(s, p) <==> x in s && p(x) {
      FilterCounts(s, p, x);
    }
  }

  /** Filtering only deletes: the result is a subsequence of the input. */
  lemma {:induction false} FilterIsSubsequence<T>(s: seq<T>, p: T -> bool)
    ensures IsSubsequence(Filter(s, p), s)
    decreases |s|
  {
    if |s| > 0 {
      FilterIsSubsequence(s[1..], p);
      if !p(s[0]) {
        SubsequenceOfTail(Filter(s[1..], p), s);
      }
    }
  }

  /** A subsequence of the tail is a subsequence of the whole. */
  lemma {:induction false} SubsequenceOfTail<T>(a: seq<T>, b: seq<T>)
    requires |b| > 0 && IsSubsequence(a, b[1..])
    ensures IsSubsequence(a, b)
    decreases |a| + |b|
  {
    if |a| > 0 && a[0] == b[0] {
      SubsequenceDropHead(a, b[1..]);
    }
  }

  /** Dropping the first element of a subsequence keeps it a subsequence. */
  lemma {:induction false} SubsequenceDropHead<T>(a: seq<T>, c: seq<T>)
    requires |a| > 0 && IsSubsequence(a, c)
    ensures IsSubsequence(a[1..], c)
    decreases |a| + |c|
  {
    if a[0] == c[0] {
      SubsequenceOfTail(a[1..], c);
    } else {
      SubsequenceDropHead(a, c[1..]);
      SubsequenceOfTail(a[1..], c);
    }
  }

  /** Two successive filters are one filter on the conjunction `pq`. */
  lemma {:induction false} FilterFilter<T>(s: seq<T>, p: T -> bool, q: T -> bool, pq: T -> bool)
    requires forall x :: pq(x) == (p(x) && q(x))
    ensures Filter(Filter(s, p), q) == Filter(s, pq)
    decreases |s|
  {
    if |s| > 0 {
      FilterFilter(s[1..], p, q, pq);
    }
  }

  /** The first element satisfying `p`: `rows[0]` of a store query, or
      `Array.prototype.find`. */
  function First<T>(s: seq<T>, p: T -> bool): (r: Option<T>)
    ensures r.Some? ==> r.value in s && p(r.value)
    ensures r.None? ==> forall i :: 0 <= i < |s| ==> !p(s[i])
    decreases |s|
  {
    if |s| == 0 then None
    else if p(s[0]) then Some(s[0])
    else First(s[1..], p)
  }

  /** A filter whose predicate holds everywhere keeps the whole sequence. */
  lemma {:induction false} FilterAll<T>(s: seq<T>, p: T -> bool)
    requires forall i :: 0 <= i < |s| ==> p(s[i])
    ensures Filter(s, p) == s
    decreases |s|
  {
    if |s| > 0 {
      FilterAll(s[1..], p);
    }
  }

  /** A filter whose predicate holds nowhere keeps nothing. */
  lemma {:induction false} FilterNone<T>(s: seq<T>, p: T -> bool)
    requires forall i :: 0 <= i < |s| ==> !p(s[i])
    ensures Filter(s, p) == []
    decreases |s|
  {
    if |s| > 0 {
      FilterNone(s[1..], p);
    }
  }

  /** `hay.includes(needle)`: `needle` occurs at some position of `hay`. */
  predicate Includes<T(==)>(hay: seq<T>, needle: seq<T>)
    decreases |hay|
  {
    needle <= hay || (|hay| > 0 && Includes(hay[1..], needle))
  }

  /** `needle` occurs in `hay` starting at index `i`. */
  predicate OccursAt<T(==)>(hay: seq<T>, needle: seq<T>, i: int) {
    0 <= i <= |hay| - |needle| && hay[i..i + |needle|] == needle
  }

  /** `Includes` is the existence of an occurrence index. */
  lemma {:induction false} IncludesAt<T>(hay: seq<T>, needle: seq<T>)
    ensures Includes(hay, needle) <==> exists i :: OccursAt(hay, needle, i)
    decreases |hay|
  {
    if |hay| > 0 {
      IncludesAt(hay[1..], needle);
      if Includes(hay[1..], needle) {
        var i :| OccursAt(hay[1..], needle, i);
        assert hay[i + 1..i + 1 + |needle|] == needle;
        assert OccursAt(hay, needle, i + 1);
      }
      if needle <= hay {
        assert OccursAt(hay, needle, 0);
      }
      if exists i :: OccursAt(hay, needle, i) {
        var i :| OccursAt(hay, needle, i);
        if i > 0 {
          assert hay[1..][i - 1..i - 1 + |needle|] == needle;
          assert OccursAt(hay[1..], needle, i - 1);
        } else {
          assert needle <= hay;
        }
      }
    } else {
      if needle == [] {
        assert OccursAt(hay, needle, 0);
      }
      if exists i :: OccursAt(hay, needle, i) {
        var i :| OccursAt(hay, needle, i);
        assert needle == [];
        assert needle <= hay;
      }
    }
  }

  /** No element satisfies `p` when filtering by `p` gives nothing. */
  lemma FilterNoneConverse<T>(s: seq<T>, p: T -> bool)
    requires |Filter(s, p)| == 0
    ensures forall x :: x in s ==> !p(x)
  {
    FilterMembers(s, p);
  }

  /** The first match in `s + [x]`, when nothing in `s` matches, is `x`. */
  lemma {:induction false} FirstOfAppended<T>(s: seq<T>, x: T, p: T -> bool)
    requires forall y :: y in s ==> !p(y)
    requires p(x)
    ensures First(s + [x], p) == Some(x)
    decreases |s|
  {
    if |s| > 0 {
      assert (s + [x])[1..] == s[1..] + [x];
      assert s[0] in s;
      FirstOfAppended(s[1..], x, p);
    }
  }

  /** `First` finds nothing when no element matches. */
  lemma {:induction false} FirstNone<T>(s: seq<T>, p: T -> bool)
    requires forall x :: x in s ==> !p(x)
    ensures First(s, p) == None
    decreases |s|
  {
    if |s| > 0 {
      assert s[0] in s;
      FirstNone(s[1..], p);
    }
  }
}

=== FILE: sorting.dfy ===
/** The sort step of `searchProducts`: the comparator it hands to
    `Array.prototype.sort`, and a stable sort with that comparator. */
module Sorting {
  import opened Backend

  /** The two values the `sortBy` parameter admits. */
  datatype SortField = ByName | ByPrice

  /** The two values the `sortOrder` parameter admits. */
  datatype SortOrder = Asc | Desc

  /** JavaScript `<` on two strings: lexicographic on characters, a proper
      prefix being smaller. */
  predicate StrLess(a: string, b: string)
    decreases |a|
  {
    if |a| == 0 then |b| > 0
    else if |b| == 0 then false
    else if a[0] != b[0] then a[0] < b[0]
    else StrLess(a[1..], b[1..])
  }

  /** `a[sortBy] < b[sortBy]`. */
  predicate KeyLess(f: SortField, a: Product, b: Product) {
    match f
    case ByName => StrLess(a.name, b.name)
    case ByPrice => a.price < b.price
  }

  /** The comparator of the source: -1 when `a` goes first, 1 when `b` goes
      first, 0 when the two keys tie. Every order other than "asc" sorts
      descending. */
  function Compare(f: SortField, o: SortOrder, a: Product, b: Product): int
  {
    if o == Asc then
      (if KeyLess(f, a, b) then -1 else if KeyLess(f, b, a) then 1 else 0)
    else
      (if KeyLess(f, b, a) then -1 else if KeyLess(f, a, b) then 1 else 0)
  }

  /** No element is followed by one the comparator puts strictly before it. */
  predicate Sorted(f: SortField, o: SortOrder, s: seq<Product>) {
    forall i, j :: 0 <= i < j < |s| ==> Compare(f, o, s[j], s[i]) >= 0
  }

  /** Insert `x` after every element it does not strictly precede. */
  function Insert(f: SortField, o: SortOrder, x: Product, s: seq<Product>): seq<Product>
    decreases |s|
  {
    if |s| == 0 then [x]
    else if Compare(f, o, x, s[0]) < 0 then [x] + s
    else [s[0]] + Insert(f, o, x, s[1..])
  }

  /** Stable insertion sort, taking the elements left to right. */
  function Sort(f: SortField, o: SortOrder, s: seq<Product>): seq<Product>
    decreases |s|
  {
    if |s| == 0 then []
    else Insert(f, o, s[|s| - 1], Sort(f, o, s[..|s| - 1]))
  }

  lemma {:induction false} StrLessTransitive(a: string, b: string, c: string)
    requires StrLess(a, b) && StrLess(b, c)
    ensures StrLess(a, c)
    decreases |a|
  {
    if |a| > 0 && |b| > 0 && |c| > 0 && a[0] == b[0] && b[0] == c[0] {
      StrLessTransitive(a[1..], b[1..], c[1..]);
    }
  }

  lemma {:induction false} StrLessAsymmetric(a: string, b: string)
    requires StrLess(a, b)
    ensures !StrLess(b, a)
    decreases |a|
  {
    if |a| > 0 && |b| > 0 && a[0] == b[0] {
      StrLessAsymmetric(a[1..], b[1..]);
    }
  }

  /** String `<` is total: of two different strings one is smaller. */
  lemma {:induction false} StrLessTotal(a: string, b: string)
    ensures StrLess(a, b) || a == b || StrLess(b, a)
    decreases |a|
  {
    if |a| > 0 && |b| > 0 && a[0] == b[0] {
      StrLessTotal(a[1..], b[1..]);
      if a[1..] == b[1..] {
        assert a == [a[0]] + a[1..] && b == [b[0]] + b[1..];
      }
    }
  }

  lemma KeyLessTransitive(f: SortField, a: Product, b: Product, c: Product)
    requires KeyLess(f, a, b) && KeyLess(f, b, c)
    ensures KeyLess(f, a, c)
  {
    if f == ByName {
      StrLessTransitive(a.name, b.name, c.name);
    }
  }

  lemma KeyLessAsymmetric(f: SortField, a: Product, b: Product)
    requires KeyLess(f, a, b)
    ensures !KeyLess(f, b, a)
  {
    if f == ByName {
      StrLessAsymmetric(a.name, b.name);
    }
  }

  /** The comparator is antisymmetric: `a` goes before `b` exactly when `b`
      goes after `a`. */
  lemma CompareAntisymmetric(f: SortField, o: SortOrder, a: Product, b: Product)
    ensures Compare(f, o, a, b) < 0 <==> Compare(f, o, b, a) > 0
  {
    if KeyLess(f, a, b) {
      KeyLessAsymmetric(f, a, b);
    }
    if KeyLess(f, b, a) {
      KeyLessAsymmetric(f, b, a);
    }
  }

  /** Going strictly first is transitive. */
  lemma CompareTransitive(f: SortField, o: SortOrder, a: Product, b: Product, c: Product)
    requires Compare(f, o, a, b) < 0 && Compare(f, o, b, c) < 0
    ensures Compare(f, o, a, c) < 0
  {
    CompareAntisymmetric(f, o, a, b);
    CompareAntisymmetric(f, o, b, c);
    if o == Asc {
      KeyLessTransitive(f, a, b, c);
      KeyLessAsymmetric(f, a, c);
    } else {
      KeyLessTransitive(f, c, b, a);
      KeyLessAsymmetric(f, c, a);
    }
  }

  lemma {:induction false} InsertPermutes(f: SortField, o: SortOrder, x: Product, s: seq<Product>)
    ensures multiset(Insert(f, o, x, s)) == multiset(s) + multiset{x}
    decreases |s|
  {
    if |s| > 0 && Compare(f, o, x, s[0]) >= 0 {
      InsertPermutes(f, o, x, s[1..]);
      assert s == [s[0]] + s[1..];
    }
  }

  lemma {:induction false} InsertSorted(f: SortField, o: SortOrder, x: Product, s: seq<Product>)
    requires Sorted(f, o, s)
    ensures Sorted(f, o, Insert(f, o, x, s))
    decreases |s|
  {
    if |s| > 0 {
      var r := Insert(f, o, x, s);
      if Compare(f, o, x, s[0]) < 0 {
        forall j | 0 < j < |r| ensures Compare(f, o, r[j], r[0]) >= 0 {
          assert r[j] == s[j - 1];
          if Compare(f, o, s[j - 1], x) < 0 {
            CompareTransitive(f, o, s[j - 1], x, s[0]);
            CompareAntisymmetric(f, o, s[j - 1], s[0]);
          }
        }
      } else {
        var rest := Insert(f, o, x, s[1..]);
        assert Sorted(f, o, s[1..]);
        InsertSorted(f, o, x, s[1..]);
        InsertPermutes(f, o, x, s[1..]);
        CompareAntisymmetric(f, o, x, s[0]);
        forall j | 0 < j < |r| ensures Compare(f, o, r[j], r[0]) >= 0 {
          assert r[j] == rest[j - 1];
          assert r[j] in multiset(s[1..]) + multiset{x};
          if r[j] != x {
            assert r[j] in s[1..];
            var k :| 0 <= k < |s[1..]| && s[1..][k] == r[j];
            assert s[k + 1] == r[j];
          }
        }
      }
    }
  }

  /** The sort returns a permutation of its input, in comparator order. */
  lemma {:induction false} SortCorrect(f: SortField, o: SortOrder, s: seq<Product>)
    ensures multiset(Sort(f, o, s)) == multiset(s)
    ensures Sorted(f, o, Sort(f, o, s))
    decreases |s|
  {
    if |s| > 0 {
      var init := s[..|s| - 1];
      SortCorrect(f, o, init);
      InsertPermutes(f, o, s[|s| - 1], Sort(f, o, init));
      InsertSorted(f, o, s[|s| - 1], Sort(f, o, init));
      assert s == init + [s[|s| - 1]];
    }
  }

  /** What "sorted" means for each order: "asc" keys never decrease, "desc"
      keys never increase, in the total order of the key. */
  lemma SortedMeaning(f: SortField, o: SortOrder, s: seq<Product>, i: int, j: int)
    requires Sorted(f, o, s) && 0 <= i < j < |s|
    ensures o == Asc ==> !KeyLess(f, s[j], s[i])
    ensures o == Desc ==> !KeyLess(f, s[i], s[j])
  {
    assert Compare(f, o, s[j], s[i]) >= 0;
    if KeyLess(f, s[i], s[j]) {
      KeyLessAsymmetric(f, s[i], s[j]);
    }
    if KeyLess(f, s[j], s[i]) {
      KeyLessAsymmetric(f, s[j], s[i]);
    }
  }
}

=== FILE: users.dfy ===
/** The user service: registration, login, and resolving a token to the
    user it names. */
module Users {
  import opened Common
  import opened Seqs
  import opened Auth
  import opened Backend

  /** The catch of register and login: a MoleculerError is re-thrown as it
      is, anything else becomes a 500 MoleculerError of the given type with
      the original error as its cause. */
  function Rethrow(e: Fault, message: string, kind: string): (r: Fault)
    ensures r.moleculer
    ensures e.moleculer ==> r == e
    ensures !e.moleculer ==> r.code == 500 && r.kind == kind && r.cause == Some(e)
  {
    if e.moleculer then e else Wrap(message, 500, kind, e)
  }

  /** The role a registration stores: `userType || 'user'`. */
  function RoleOf(userType: Option<string>): string {
    if Truthy(userType) then userType.value else "user"
  }

  /** The fields register reads back: username, email and userType. */
  datatype Profile = Profile(username: string, email: string, userType: string)

  /** The reply of `register`; `user` is `undefined` when the read-back finds
      no row. */
  datatype Registered = Registered(message: string, user: Option<Profile>)

  /** The body of the `try` in `register`. */
  function RegisterSteps(env: Env, st: Store, username: string, email: string, password: string,
                         userType: Option<string>, newId: string): Run<Registered>
  {
    var find := UsersFindByEmail(email);
    match env.fault(find)
    case Some(e) => Run(st, [find], Err(e))
    case None =>
      if |UsersWithEmail(st.users, email)| > 0 then
        Run(st, [find], Err(Raise("Email already exists", 400, "")))
      else
        var hash := HashPassword(password);
        match env.fault(hash)
        case Some(e) => Run(st, [find, hash], Err(e))
        case None =>
          var role := RoleOf(userType);
          var create := UsersCreate(username, email, env.hash(password), role);
          match env.fault(create)
          case Some(e) => Run(st, [find, hash, create], Err(e))
          case None =>
            var st' := st.(users := st.users + [User(newId, username, email, env.hash(password), role)]);
            var readBack := UsersFindProfile(email);
            match env.fault(readBack)
            case Some(e) => Run(st', [find, hash, create, readBack], Err(e))
            case None =>
              var back := First(st'.users, (u: User) => u.email == email);
              var profile := if back.Some? then Some(Profile(back.value.username, back.value.email, back.value.userType))
                             else None;
              Run(st', [find, hash, create, readBack], Ok(Registered("User registered successfully", profile)))
  }

  /** `user.register`; `newId` is the id the users table assigns. Every error
      that leaves it is a MoleculerError. */
  function Register(env: Env, st: Store, username: string, email: string, password: string,
                    userType: Option<string>, newId: string): (r: Run<Registered>)
    ensures r.store.products == st.products && r.store.cart == st.cart && r.store.orders == st.orders
    ensures r.result.Err? ==> r.result.error.moleculer
    ensures r.store != st ==> r.store.users == st.users + [User(newId, username, email, env.hash(password), RoleOf(userType))]
  {
    var run := RegisterSteps(env, st, username, email, password, userType, newId);
    match run.result
    case Ok(_) => run
    case Err(e) => Run(run.store, run.calls, Err(Rethrow(e, "Registration failed", "REGISTRATION_FAILED")))
  }

  /** An email already in the table is rejected with the 400 error as thrown,
      after the one lookup, and nothing is written. */
  lemma DuplicateEmailRejected(env: Env, st: Store, username: string, email: string, password: string,
                               userType: Option<string>, newId: string)
    requires env.fault(UsersFindByEmail(email)).None?
    requires exists u :: u in st.users && u.email == email
    ensures Register(env, st, username, email, password, userType, newId)
              == Run(st, [UsersFindByEmail(email)], Err(Raise("Email already exists", 400, "")))
  {
    var u :| u in st.users && u.email == email;
    FilterMembers(st.users, (v: User) => v.email == email);
    assert u in UsersWithEmail(st.users, email);
  }

  /** A successful registration used a fresh email, appends one row holding
      the password's hash (never the password itself) and the requested role
      or "user", and replies with that row's username, email and role. */
  lemma RegisterStoresHashedUser(env: Env, st: Store, username: string, email: string, password: string,
                                 userType: Option<string>, newId: string)
    requires Register(env, st, username, email, password, userType, newId).result.Ok?
    ensures forall u :: u in st.users ==> u.email != email
    ensures var r := Register(env, st, username, email, password, userType, newId);
            && r.store.users == st.users + [User(newId, username, email, env.hash(password), RoleOf(userType))]
            && r.result.value.user == Some(Profile(username, email, RoleOf(userType)))
            && r.calls == [UsersFindByEmail(email), HashPassword(password),
                           UsersCreate(username, email, env.hash(password), RoleOf(userType)),
                           UsersFindProfile(email)]
  {
    FilterNoneConverse(st.users, (v: User) => v.email == email);
    var added := User(newId, username, email, env.hash(password), RoleOf(userType));
    FirstOfAppended(st.users, added, (v: User) => v.email == email);
  }

  /** The reply of `login`. */
  datatype LoggedIn = LoggedIn(message: string, token: string)

  /** The body of the `try` in `login`. */
  function LoginSteps(env: Env, st: Store, email: string, password: string): Run<LoggedIn>
  {
    var find := UsersFindByEmail(email);
    match env.fault(find)
    case Some(e) => Run(st, [find], Err(e))
    case None =>
      match First(st.users, (u: User) => u.email == email)
      case None => Run(st, [find], Err(Raise("User not found", 404, "")))
      case Some(u) =>
        var compare := ComparePassword(password, u.password);
        match env.fault(compare)
        case Some(e) => Run(st, [find, compare], Err(e))
        case None =>
          if !env.passwordMatches(password, u.password) then
            Run(st, [find, compare], Err(Raise("Invalid credentials", 401, "")))
          else
            match env.sign(Claims(u.id, u.userType))
            case Err(e) => Run(st, [find, compare], Err(e))
            case Ok(token) => Run(st, [find, compare], Ok(LoggedIn("User logged in successfully", token)))
  }

  /** `user.login`. It never writes, and every error that leaves it is a
      MoleculerError. */
  function Login(env: Env, st: Store, email: string, password: string): (r: Run<LoggedIn>)
    ensures r.store == st
    ensures r.result.Err? ==> r.result.error.moleculer
  {
    var run := LoginSteps(env, st, email, password);
    match run.result
    case Ok(_) => run
    case Err(e) => Run(run.store, run.calls, Err(Rethrow(e, "Login failed", "LOGIN_FAILED")))
  }

  /** An unknown email gets 404 "User not found" before any password
      comparison is made. */
  lemma UnknownEmailIsNotFound(env: Env, st: Store, email: string, password: string)
    requires env.fault(UsersFindByEmail(email)).None?
    requires forall u :: u in st.users ==> u.email != email
    ensures Login(env, st, email, password)
              == Run(st, [UsersFindByEmail(email)], Err(Raise("User not found", 404, "")))
  {
    FirstNone(st.users, (u: User) => u.email == email);
  }

  /** Login succeeds exactly when the first user with that email exists, the
      password matches its hash and signing that user's id and role succeeds
      (and no call fails); the token is then that signature. A mismatch is 401
      "Invalid credentials"; a signing error is re-thrown as it is when it is a
      MoleculerError and as 500 LOGIN_FAILED otherwise. */
  lemma LoginSignsIdAndRole(env: Env, st: Store, email: string, password: string)
    requires env.fault(UsersFindByEmail(email)).None?
    requires First(st.users, (u: User) => u.email == email).Some?
    ensures var u := First(st.users, (u: User) => u.email == email).value;
            var r := Login(env, st, email, password);
            && u in st.users && u.email == email
            && r.calls == [UsersFindByEmail(email), ComparePassword(password, u.password)]
            && (r.result.Ok? <==> env.fault(ComparePassword(password, u.password)).None?
                                  && env.passwordMatches(password, u.password)
                                  && env.sign(Claims(u.id, u.userType)).Ok?)
            && (r.result.Ok? ==> r.result.value.token == env.sign(Claims(u.id, u.userType)).value)
            && ((env.fault(ComparePassword(password, u.password)).None? && !env.passwordMatches(password, u.password))
                  ==> r.result == Err(Raise("Invalid credentials", 401, "")))
            && ((env.fault(ComparePassword(password, u.password)).None? && env.passwordMatches(password, u.password)
                 && env.sign(Claims(u.id, u.userType)).Err?)
                  ==> r.result == Err(Rethrow(env.sign(Claims(u.id, u.userType)).error, "Login failed", "LOGIN_FAILED")))
  {
  }

  /** A user registered with `password` can log in with it, provided the hash
      accepts its own password: the token signs the new row's id and role, and
      only a signing error stands in the way. Both requests run in one
      environment, so login's `users.find` by email answers as register's
      identical lookup did; a lookup failure or timeout between the two
      requests is outside this lemma. */
  lemma RegisterThenLogin(env: Env, st: Store, username: string, email: string, password: string,
                          userType: Option<string>, newId: string)
    requires Register(env, st, username, email, password, userType, newId).result.Ok?
    requires env.fault(UsersFindByEmail(email)).None?
    requires env.passwordMatches(password, env.hash(password))
    requires env.fault(ComparePassword(password, env.hash(password))).None?
    ensures var st' := Register(env, st, username, email, password, userType, newId).store;
            Login(env, st', email, password).result
              == match env.sign(Claims(newId, RoleOf(userType)))
                 case Ok(token) => Ok(LoggedIn("User logged in successfully", token))
                 case Err(e) => Err(Rethrow(e, "Login failed", "LOGIN_FAILED"))
  {
    RegisterStoresHashedUser(env, st, username, email, password, userType, newId);
    var added := User(newId, username, email, env.hash(password), RoleOf(userType));
    FirstOfAppended(st.users, added, (v: User) => v.email == email);
  }

  // ----- getUserByToken -----

  /** The fields getUserByToken reads back: everything but the password. */
  datatype PublicUser = PublicUser(id: string, username: string, email: string, userType: string)

  datatype Authenticated = Authenticated(message: string, user: PublicUser)

  /** The catch of getUserByToken: a JsonWebTokenError is an invalid token,
      every other error (its own MoleculerErrors included) an AUTH_ERROR. */
  function Classify(e: Fault): (r: Fault)
    ensures r.cause == Some(e)
    ensures r.kind == "INVALID_TOKEN" <==> e.name == "JsonWebTokenError"
    ensures r.kind == "INVALID_TOKEN" ==> r.code == 401
    ensures r.kind != "INVALID_TOKEN" ==> r.code == 500 && r.kind == "AUTH_ERROR"
  {
    if e.name == "JsonWebTokenError" then Wrap("Invalid token", 401, "INVALID_TOKEN", e)
    else Wrap("Error authenticating user", 500, "AUTH_ERROR", e)
  }

  /** The body of the `try` in `getUserByToken`. */
  function ResolveSteps(env: Env, st: Store, token: string): Run<Authenticated>
  {
    match env.verify(token)
    case Err(e) => Run(st, [], Err(e))
    case Ok(claims) =>
      if claims.userId == "" then Run(st, [], Err(Raise("Invalid token payload", 401, "")))
      else
        var find := UsersFindById(claims.userId);
        match env.fault(find)
        case Some(e) => Run(st, [find], Err(e))
        case None =>
          var rows := UsersWithId(st.users, claims.userId);
          if |rows| == 0 then Run(st, [find], Err(Raise("User not found", 404, "")))
          else
            var u := rows[0];
            Run(st, [find], Ok(Authenticated("Authenticated User", PublicUser(u.id, u.username, u.email, u.userType))))
  }

  /** `user.getUserByToken`; `token` is what the before-hook put in the
      request's meta. */
  function GetUserByToken(env: Env, st: Store, token: Option<string>): (r: Run<Authenticated>)
    ensures r.store == st
  {
    if !Truthy(token) then Run(st, [], Err(Raise("Token is required", 400, "")))
    else
      var run := ResolveSteps(env, st, token.value);
      match run.result
      case Ok(_) => run
      case Err(e) => Run(st, run.calls, Err(Classify(e)))
  }

  /** The error classes of getUserByToken: a missing token is the 400 thrown
      before the `try`; a token the verifier rejects as malformed is 401
      INVALID_TOKEN; everything else — an expired token, a payload without
      userId, an unknown user, a failing lookup — is 500 AUTH_ERROR. */
  lemma GetUserByTokenErrors(env: Env, st: Store, token: Option<string>)
    ensures !Truthy(token) ==>
              GetUserByToken(env, st, token) == Run(st, [], Err(Raise("Token is required", 400, "")))
    ensures Truthy(token) && env.verify(token.value).Err? ==>
              var e := env.verify(token.value).error;
              && GetUserByToken(env, st, token).calls == []
              && GetUserByToken(env, st, token).result.Err?
              && ((GetUserByToken(env, st, token).result.error.kind == "INVALID_TOKEN")
                    <==> e.name == "JsonWebTokenError")
    ensures Truthy(token) && env.verify(token.value).Ok? && env.verify(token.value).value.userId == "" ==>
              GetUserByToken(env, st, token)
                == Run(st, [], Err(Wrap("Error authenticating user", 500, "AUTH_ERROR",
                                        Raise("Invalid token payload", 401, ""))))
    ensures Truthy(token) && env.verify(token.value).Ok? && env.verify(token.value).value.userId != "" ==>
              var id := env.verify(token.value).value.userId;
              (env.fault(UsersFindById(id)).None? && forall u :: u in st.users ==> u.id != id) ==>
                GetUserByToken(env, st, token)
                  == Run(st, [UsersFindById(id)], Err(Wrap("Error authenticating user", 500, "AUTH_ERROR",
                                                           Raise("User not found", 404, ""))))
  {
    if Truthy(token) && env.verify(token.value).Ok? && env.verify(token.value).value.userId != "" {
      var id := env.verify(token.value).value.userId;
      if forall u :: u in st.users ==> u.id != id {
        FilterNone(st.users, (u: User) => u.id == id);
      }
    }
  }

  /** The token login hands out resolves to the same user: when the verifier
      accepts what the signer produces and ids are unique, getUserByToken on
      login's token returns the logged-in user without the password. */
  lemma LoginTokenResolvesToUser(env: Env, st: Store, email: string, password: string)
    requires Login(env, st, email, password).result.Ok?
    requires forall c :: env.sign(c).Ok? ==> env.verify(env.sign(c).value) == Ok(c)
    requires forall i, j :: 0 <= i < |st.users| && 0 <= j < |st.users| && st.users[i].id == st.users[j].id ==> i == j
    requires forall u :: u in st.users ==> u.id != ""
    requires forall c :: env.sign(c).Ok? ==> env.sign(c).value != ""
    requires env.fault(UsersFindById(First(st.users, (u: User) => u.email == email).value.id)).None?
    ensures var u := First(st.users, (u: User) => u.email == email).value;
            var token := Login(env, st, email, password).result.value.token;
            GetUserByToken(env, st, Some(token)).result
              == Ok(Authenticated("Authenticated User", PublicUser(u.id, u.username, u.email, u.userType)))
  {
    var u := First(st.users, (u: User) => u.email == email).value;
    var token := Login(env, st, email, password).result.value.token;
    assert token == env.sign(Claims(u.id, u.userType)).value;
    var k :| 0 <= k < |st.users| && st.users[k] == u;
    FilterMembers(st.users, (v: User) => v.id == u.id);
    UniqueIdFilter(st.users, u.id, k);
  }

  /** With unique ids, the rows with the id of row `k` are exactly row `k`. */
  lemma {:induction false} UniqueIdFilter(users: seq<User>, id: string, k: int)
    requires 0 <= k < |users| && users[k].id == id
    requires forall i, j :: 0 <= i < |users| && 0 <= j < |users| && users[i].id == users[j].id ==> i == j
    ensures UsersWithId(users, id) == [users[k]]
    decreases |users|
  {
    var p := (v: User) => v.id == id;
    if k == 0 {
      FilterNone(users[1..], p);
    } else {
      UniqueIdFilter(users[1..], id, k - 1);
    }
  }
}
